=== FILE: README.md ===
# AR BIM viewer — a Dafny model of its decision rules

The AR BIM viewer is a React and three.js application. Users sign in to it,
or join as guests, and browse building-information-model (BIM) projects
stored in Supabase. A project opens in a 3D viewer that can enter a WebXR
session (augmented reality, virtual reality or inline). The viewer can
highlight model components and show their maintenance metadata. Admins
manage users and projects. A small edge function proxies requests with
CORS headers.

Under the UI sits a set of small, sequential decision rules. This project
models those rules as immutable datatypes and pure functions, and proves
their properties. Every outside call becomes a parameter that carries its
answer (an oracle):
- the browser's XR runtime;
- Supabase auth, the database and storage;
- the upstream fetch of the proxy.

| file | module | models |
|---|---|---|
| `common.dfy` | `Common` | `Option` |
| `strings.dfy` | `Strings` | JavaScript string operations the code relies on: `includes`, first-occurrence `replace`, `endsWith`, `toLowerCase` (ASCII), `substring`, and integer `toString` with its decimal round trip |
| `records.dfy` | `Records` | roles, profiles, projects, component metadata, and property-bag values |
| `scene_tree.dfy` | `SceneTree` | the three.js object tree as an inductive `Node`: meshes carry a material slot (one material or a list) and an optional saved original. Covers highlight, restore, disposal and the wireframe switch |
| `scene_setup.dfy` | `SceneSetup` | `createBasicScene`, `createCamera`, and the scene and camera the viewer builds inline |
| `xr_session.dfy` | `XrSession` | the XR support probe, mode priority and per-mode features, and the viewer's state record with initialize / enter / exit / session-end / cleanup transitions |
| `viewer_controls.dfy` | `ViewerControls` | the wireframe toggle and the screenshot file name |
| `component_panel.dfy` | `ComponentPanel` | status colours, property value formatting, and the edit / cancel / save handling with its guest gating |
| `dashboard.dfy` | `Dashboard` | the visibility condition of the project query, the handling of its answer, a reference query (filter, newest first), and `canEdit` |
| `upload.dfy` | `Upload` | the file check, the default name, the submit gate, the storage path, the inserted row, and error classification |
| `admin.dfy` | `Admin` | the local list updates after role changes, deletions and visibility switches; the own-row guard; the statistics; and description truncation |
| `auth.dfy` | `Auth` | role flags, the profile chosen for each profile-fetch outcome, guest entry, and the session and auth-change handlers |
| `signup.dfy` | `SignUp` | the sign-up checks, in order, and the resulting messages |
| `cors_proxy.dfy` | `CorsProxy` | the proxy's preflight, 400 and 500 paths, forwarded headers and body, and returned headers and status |

The model follows the code as written, including where its behaviour may
surprise a reader:
- The probe asks about immersive-vr first, then immersive-ar, then inline; entry prefers immersive-ar.
- A `requestSession` that fails aborts entry. So does an `isSessionSupported` that throws during entry; the probe, by contrast, catches each query separately.
- The failure alert's text queries `isSessionSupported` again for all three modes. If any of them throws, the handler rejects before `alert` runs and no alert appears.
- Entering XR does not suspend the render loop.
- A failed `setSession` leaves the session reference held while `isARMode` stays false.
- `disposeObject` does not dispose a saved original material (unless that same material object is also shown by a mesh; see "Left out" on shared materials).
- The default project name strips `.ifc` case-sensitively, so `A.IFC` keeps its extension.
- The visibility switch negates the flag it is passed, not the stored one.
- Clicking a guest's row in the admin table makes that user an admin.
- A rejected `signUp` promise leaves the sign-up form loading.
- The proxy copies a lower-case `authorization` header into `Authorization` as well.
- `cleanup` does not remove the window resize listener: the handler it names was created by an earlier render than the one registered.
- Opening a row's role dropdown also clicks the row, which swaps admin and user; leaving the dropdown unchanged keeps that swap.

## Model

| member | source | states |
|---|---|---|
| `XrSession.CheckXrSupport` | src/components/viewer/SimpleBIMViewer.tsx:45-103 | Without `navigator.xr` support is false and no mode is queried. Otherwise VR, AR and inline are queried in that order, and support holds iff some query answered true; a query that throws counts as unsupported |
| `XrSession.FirstDecided` | src/components/viewer/SimpleBIMViewer.tsx:253-281 | Every mode before the returned position answered "unsupported", and the mode at it did not |
| `XrSession.SelectMode` | src/components/viewer/SimpleBIMViewer.tsx:253-281 | A mode is requested only if it reported support and every higher-priority mode (AR, then VR, then inline) reported no support. No mode is requested iff XR is absent or all three are unsupported. A throwing query aborts the selection |
| `XrSession.SessionInitFor` | src/components/viewer/SimpleBIMViewer.tsx:255-279 | AR requires local-floor and hit-test, VR requires local-floor, inline requires nothing. All three make dom-overlay optional; the overlay root is set when mounted |
| `XrSession.RequiredFeaturesGrowWithPriority` | src/components/viewer/SimpleBIMViewer.tsx:255-279 | A lower-priority mode never requires a feature that a higher one does not |
| `XrSession.Rank` | src/types/webxr.d.ts:148 | Each of the three session modes has one position in the priority order |
| `XrSession.Initialize` | src/components/viewer/SimpleBIMViewer.tsx:138-218 | No effect when unmounted or already ready. A WebGL failure leaves the viewer not ready and changes only two fields: the error text, and the scene, which is the bare scene (background only) stored before the renderer was created. Success builds the viewer scene, enables orbit controls, attaches the renderer, listens for resize and marks the viewer ready |
| `XrSession.ApplyProbe` | src/components/viewer/SimpleBIMViewer.tsx:93 | Only the support flag changes, and it takes the probe's verdict |
| `XrSession.Enable` | src/components/viewer/SimpleBIMViewer.tsx:242-244 | Orbit controls take the given enabled flag; missing controls stay missing |
| `XrSession.Exit` | src/components/viewer/SimpleBIMViewer.tsx:234-245 | An explicit exit clears the session and `isARMode` and re-enables controls. Readiness, XR support flag, renderer, scene, resize listener and error text are kept |
| `XrSession.DeviceEnded` | src/components/viewer/SimpleBIMViewer.tsx:294-301 | The session `end` event, once its listener is attached, clears the session and `isARMode` and re-enables controls. Without the listener nothing changes. Readiness, XR support flag, renderer, scene, resize listener and error text are kept |
| `XrSession.Enter` | src/components/viewer/SimpleBIMViewer.tsx:248-307 | Entry succeeds iff a mode is selected, the request is granted and `setSession` succeeds. Only then is `isARMode` set and controls disabled. A failure leaves `isARMode` and the controls as they were. Its alert appears iff none of the three `isSessionSupported` calls in the alert text throws, so never after a query that threw during selection. A failed `setSession` changes only the held session and the `end` listener flag. Readiness, XR support flag, renderer, scene, resize listener and error text are always kept. The request carries the selected mode's features |
| `XrSession.ToggleAR` | src/components/viewer/SimpleBIMViewer.tsx:231-310 | No effect without a renderer. Exit when in XR, enter otherwise |
| `XrSession.ArButtonShown` | src/components/viewer/SimpleBIMViewer.tsx:443-451 | The AR button, labelled "Exit AR" in AR mode, appears iff the viewer is ready and found XR support, whether or not a session is active |
| `XrSession.ArButtonClickActs` | src/components/viewer/SimpleBIMViewer.tsx:231-247 | Whenever the button is visible the viewer has a renderer, so a click never takes `toggleAR`'s early return: it exits in AR mode and enters otherwise |
| `XrSession.ArButtonFollowsProbe` | src/components/viewer/SimpleBIMViewer.tsx:93-218 | After initialization and the probe, in either order, the AR button is shown iff the probe found a supported mode; a failed initialization never shows it |
| `XrSession.Cleanup` | src/components/viewer/SimpleBIMViewer.tsx:312-324 | Ends and clears any held session. When mounted, it detaches and disposes the renderer. The resize listener stays registered, because the handler passed to `removeEventListener` belongs to an earlier render than the one added at line 194. Readiness, controls, AR mode, XR support flag, scene and error text are untouched, which matters when a change of `projectId` runs cleanup on a mounted viewer |
| `XrSession.CleanupLeavesResizeListener` | src/components/viewer/SimpleBIMViewer.tsx:194-323 | After a successful initialization, neither cleanup nor the session's `end` event removes the resize listener |
| `XrSession.InitialInv` | src/components/viewer/SimpleBIMViewer.tsx:26-28 | The initial state satisfies the viewer invariant |
| `XrSession.TransitionsKeepInv` | src/components/viewer/SimpleBIMViewer.tsx:138-310 | Initialize, probe, toggle and session end all preserve the invariant that `isARMode` implies a held session and a renderer |
| `XrSession.ExitAndDeviceEndConverge` | src/components/viewer/SimpleBIMViewer.tsx:234-245 | Explicit exit and the `end` event reach the same state, with session cleared and controls enabled |
| `XrSession.EnterThenExitRestoresControls` | src/components/viewer/SimpleBIMViewer.tsx:283-301 | Entering and then exiting leaves orbit controls enabled and no session held |
| `XrSession.NoSupportNeverActive` | src/components/viewer/SimpleBIMViewer.tsx:302-307 | With no supported mode, toggling never sets `isARMode` and leaves the state unchanged. With a renderer, entry fails; the alert appears iff no `isSessionSupported` call throws, and then the failure is that no mode is compatible |
| `XrSession.ProbeSupportMeansSelection` | src/components/viewer/SimpleBIMViewer.tsx:62-93 | If no query throws and the probe reports support, entry selects the best-ranked supported mode |
| `XrSession.ArWins` | src/components/viewer/SimpleBIMViewer.tsx:253-262 | When immersive-ar is supported it is selected, whatever the other modes say |
| `XrSession.SetSessionFailureKeepsSession` | src/components/viewer/SimpleBIMViewer.tsx:283-307 | A failing `setSession` leaves the session reference set while `isARMode` stays false |
| `XrSession.CleanupThenEndReleasesAll` | src/components/viewer/SimpleBIMViewer.tsx:294-324 | After cleanup and the `end` event, no session is held, AR mode is off, controls are enabled, a mounted renderer is disposed, and the resize listener is as it was |
| `SceneTree.Highlight` | src/utils/threeHelpers.ts:67-80 | Every mesh gets a translucent highlight material and has a saved original. The shown materials carry the ids `next`, `next`+1, … in traversal order, one per mesh, and the counter advances by the mesh count |
| `SceneTree.HighlightAllocatesFreshIds` | src/utils/threeHelpers.ts:73-77 | The highlight materials have pairwise distinct ids, within the allocated range, and none of them equals an id in use before |
| `SceneTree.RemoveHighlight` | src/utils/threeHelpers.ts:82-89 | Afterwards no mesh holds a saved original |
| `SceneTree.RemoveAfterHighlight` | src/utils/threeHelpers.ts:67-89 | Highlighting and then restoring is the same as restoring, because an existing saved original is never overwritten |
| `SceneTree.HighlightTimes` | src/utils/threeHelpers.ts:67-80 | Repeated highlighting allocates one new material per mesh per call |
| `SceneTree.HighlightThenRemoveRestores` | src/utils/threeHelpers.ts:67-89 | Any number of highlights followed by one restore gives back a clean tree exactly |
| `SceneTree.HighlightTimesRemove` | src/utils/threeHelpers.ts:67-89 | On any tree, any number of highlights followed by a restore equals a plain restore |
| `SceneTree.RemoveOnCleanIsIdentity` | src/utils/threeHelpers.ts:84 | Meshes without a saved original are untouched by restore |
| `SceneTree.RemoveHighlightIdempotent` | src/utils/threeHelpers.ts:86 | A second restore is a no-op, since the saved slot is deleted |
| `SceneTree.HighlightTouchesOnlyMeshes` | src/utils/threeHelpers.ts:69 | Highlight changes only mesh materials: the tree shape, every mesh geometry and every other node are kept |
| `SceneTree.RemoveTouchesOnlyMeshes` | src/utils/threeHelpers.ts:84 | Restore changes only mesh materials: the tree shape, every mesh geometry and every other node are kept |
| `SceneTree.DisposeSlot` | src/utils/threeHelpers.ts:139-145 | The slot keeps its shape and shows the same materials, each with only its `disposed` flag set |
| `SceneTree.DisposeReleasesEveryMesh` | src/utils/threeHelpers.ts:133-148 | After disposal every mesh's geometry and every one of its materials is disposed, and nothing but meshes changed |
| `SceneTree.Dispose` | src/utils/threeHelpers.ts:133-148 | The materials shown by the meshes, in traversal order, are the same materials with only `disposed` set, and every mesh's saved original is kept as it was |
| `SceneTree.WireSlot` | src/components/viewer/ViewerControls.tsx:31-39 | The slot keeps its kind and length. Every material with a `wireframe` property takes the mode and changes in nothing else; a material without it is kept as it is |
| `SceneTree.SetWireframe` | src/components/viewer/ViewerControls.tsx:29-41 | The traversal keeps the list of mesh materials (in traversal order) the same length; a material without the `wireframe` property is untouched, and every other one changes only `wireframe`, to the mode |
| `SceneTree.SetWireframeEstablishes` | src/components/viewer/ViewerControls.tsx:29-41 | After the traversal every mesh material with the property shows the mode, and non-mesh nodes are unchanged |
| `SceneTree.SetWireframeLastWins` | src/components/viewer/ViewerControls.tsx:29-41 | Two traversals equal one with the later mode |
| `SceneTree.WireframeSkipsMaterialsWithoutTheProperty` | src/components/viewer/ViewerControls.tsx:29-41 | Across the whole tree, in single and array slots alike, a material without the property is untouched, and every other material changes only its `wireframe` field |
| `SceneTree.MeshFreeTreesUntouched` | src/utils/threeHelpers.ts:69-135 | A tree without meshes is unchanged by highlight, restore, disposal and the wireframe switch |
| `SceneSetup.CreateBasicScene` | src/utils/threeHelpers.ts:4-24 | A light-grey scene holding, in order: an ambient light; a shadow-casting directional light at (50,50,50) with a 2048 shadow map; and a 100×100 grid. It has no meshes |
| `SceneSetup.CreateCamera` | src/utils/threeHelpers.ts:26-30 | fov 75, the given aspect, near 0.1, far 1000, positioned at (10,10,10) |
| `SceneSetup.ViewerScene` | src/components/viewer/SimpleBIMViewer.tsx:143-191 | The inline scene matches the basic scene, except the light keeps the default shadow map size. It adds one clean placeholder mesh |
| `SceneSetup.ViewerCamera` | src/components/viewer/SimpleBIMViewer.tsx:148-154 | The viewer's inline camera equals the helper's camera |
| `SceneSetup.BasicSceneUntouchedByHelpers` | src/utils/threeHelpers.ts:4-24 | The tree helpers leave the basic scene as it is |
| `ViewerControls.ToggleWireframe` | src/components/viewer/ViewerControls.tsx:23-42 | Without a model nothing changes. Otherwise the flag is negated and the model is the wireframe traversal with the new flag: every mesh material with the property takes it, a material without the property is untouched, the others change only `wireframe`, and only mesh materials change |
| `ViewerControls.ToggleTwice` | src/components/viewer/ViewerControls.tsx:26-41 | Two toggles restore the flag, and every affected material then equals it |
| `ViewerControls.ScreenshotFileName` | src/components/viewer/ViewerControls.tsx:53 | The project name plus `.png`, or `screenshot.png` when there is no project or the name is empty |
| `ComponentPanel.StatusColor` | src/components/viewer/ComponentPanel.tsx:21-28 | good, warning and critical map to the success, warning and danger colours; any other string maps to the secondary text colour |
| `ComponentPanel.StatusColorsDistinct` | src/components/viewer/ComponentPanel.tsx:21-28 | The three known statuses get three different colours, none of them the fallback |
| `ComponentPanel.GetField` | src/components/viewer/ComponentPanel.tsx:32 | A defined property read comes from a field with that key; a missing key reads undefined |
| `ComponentPanel.FormatPropertyValue` | src/components/viewer/ComponentPanel.tsx:30-36 | null and undefined give `N/A`. An object with a defined `.value` gives that inner value unchanged. An object without one gives `[object Object]`. Anything else gives its string form |
| `ComponentPanel.FormatPrimitivesFaithful` | src/components/viewer/ComponentPanel.tsx:35 | Strings show as themselves, and numbers as decimals that read back to the same number |
| `ComponentPanel.FormatUnwrapsOneLevel` | src/components/viewer/ComponentPanel.tsx:32-34 | Only one `.value` level is unwrapped |
| `ComponentPanel.FieldsDetermineRecord` | src/config/supabase.ts:32-45 | A component record is determined by its twelve fields |
| `ComponentPanel.ApplyEdit` | src/components/viewer/ComponentPanel.tsx:101-259 | Each form handler sets exactly its own field and leaves every other field unchanged |
| `ComponentPanel.FooterButtons` | src/components/viewer/ComponentPanel.tsx:329-365 | Guests see no footer buttons. Others see Cancel and Save while editing, and Edit otherwise |
| `ComponentPanel.Step` | src/components/viewer/ComponentPanel.tsx:16-19 | Only Save while editing reports a record, and that record is the edited copy. Cancel resets the copy and closes the form. Changes while editing apply to the copy |
| `ComponentPanel.GuestNeverEdits` | src/components/viewer/ComponentPanel.tsx:329 | For a guest, no event sequence changes the panel or reports anything |
| `ComponentPanel.ChangesWhileEditing` | src/components/viewer/ComponentPanel.tsx:101-259 | A series of form changes applies to the copy in order and reports nothing |
| `ComponentPanel.CancelDiscardsEdits` | src/components/viewer/ComponentPanel.tsx:340-343 | Edit, then any changes, then Cancel returns to the freshly opened panel and reports nothing |
| `ComponentPanel.SaveHandsOverEdits` | src/components/viewer/ComponentPanel.tsx:16-19 | Edit, then changes, then Save reports the changed copy exactly once and closes the form |
| `ComponentPanel.RunAppend` | src/components/viewer/ComponentPanel.tsx:16-19 | Running two event sequences one after the other equals running their concatenation |
| `Dashboard.Plan` | src/components/Dashboard.tsx:36-52 | No profile means no query. A guest gets public projects only. A non-admin with an id gets public projects or their own. A non-guest without an id gets public projects. An admin with an id gets no condition |
| `Dashboard.PlanIsVisibility` | src/components/Dashboard.tsx:45-52 | The query's condition matches a project iff the role-based visibility rule allows it |
| `Dashboard.Select` | src/components/Dashboard.tsx:45-52 | The condition keeps exactly the matching rows, each as often as it occurs in the table |
| `Dashboard.SortNewestFirst` | src/components/Dashboard.tsx:55 | The ordering is by `created_at`, descending, and is a permutation |
| `Dashboard.Insert` | src/components/Dashboard.tsx:55 | Inserting into a newest-first list keeps it newest-first and adds exactly the one row |
| `Dashboard.FetchProjects` | src/components/Dashboard.tsx:30-87 | Without a profile the list is kept. An error or exception gives the empty list. Rows are shown as returned. Loading always ends |
| `Dashboard.ReferenceQuery` | src/components/Dashboard.tsx:43-56 | What a faithful database returns for the query: newest first, exactly the rows that match the condition, each as often as it occurs in the table |
| `Dashboard.ListsExactlyTheVisible` | src/components/Dashboard.tsx:43-79 | Given a faithful database, the list is newest-first, and any project is in it iff it is in the table and the viewer may see it, and a visible project appears as often as it occurs in the table |
| `Dashboard.CanEdit` | src/components/Dashboard.tsx:188 | Edit is offered iff the user is not a guest and is an admin or the creator, so guests never can |
| `Dashboard.EditableIsVisible` | src/components/Dashboard.tsx:45-52 | A user with an id who may edit a project is also shown it |
| `Upload.HandleFileChange` | src/components/projects/UploadModal.tsx:19-33 | A file is taken iff its lower-cased name ends in `.ifc`. An empty name defaults to the file name with the first case-sensitive `.ifc` removed. Any other file is cleared, with the error set |
| `Upload.DefaultNameDropsExtension` | src/components/projects/UploadModal.tsx:24-26 | For a name with a single trailing `.ifc`, the default is the name without it |
| `Upload.UpperCaseExtensionKept` | src/components/projects/UploadModal.tsx:22-26 | Any file name accepted as IFC that has no exact lower-case `.ifc` in it, `A.IFC` for one, becomes the default name unchanged, extension included |
| `Upload.EnabledIffReady` | src/components/projects/UploadModal.tsx:37-40 | For a signed-in user with an id, an enabled button means exactly that the submit check passes and nothing is uploading |
| `Upload.SubmitDisabled` | src/components/projects/UploadModal.tsx:252 | The submit button is enabled iff a file is chosen, the name is non-empty and no upload is running |
| `Upload.Classify` | src/components/projects/UploadModal.tsx:113-121 | Error text by priority: `bucket`, then `timeout`, then `size`, then the non-empty raw message, then the generic text |
| `Upload.ClassifyTiers` | src/components/projects/UploadModal.tsx:113-121 | A message with a keyword always gives one of the three fixed texts. Any other shown text is the raw message, and that message contains none of the keywords |
| `Upload.StoragePath` | src/components/projects/UploadModal.tsx:64-66 | The path is `projects/<decimal timestamp>-<token>.ifc`, and the timestamp reads back |
| `Upload.ThumbnailUrl` | src/components/projects/UploadModal.tsx:94 | Same length as the public URL, and unchanged when the URL has no `.ifc` |
| `Upload.ThumbnailSwapsExtension` | src/components/projects/UploadModal.tsx:94 | A URL whose only `.ifc` is at its end gets `.jpg` in its place |
| `Upload.HandleSubmit` | src/components/projects/UploadModal.tsx:35-125 | A form that fails the check only gets the error. A missing bucket aborts before upload, with the bucket text. An upload error aborts after the upload to the storage path with that error classified. An insert error aborts after the insert with that error classified. Success needs every step. The inserted row has the default description, the thumbnail URL and the creator's id. Only `error` and `uploading` change, and `uploading` always ends false |
| `Upload.MissingBucketReported` | src/components/projects/UploadModal.tsx:58-61 | A missing bucket is reported with the bucket text, and nothing is uploaded |
| `Admin.MapWhere` | src/components/admin/AdminPanel.tsx:45-47 | Same length and order; exactly the entries with the id are changed |
| `Admin.Without` | src/components/admin/AdminPanel.tsx:64 | An entry remains iff it was present and does not have the id |
| `Admin.WithoutCounts` | src/components/admin/AdminPanel.tsx:64 | Every copy of an entry with the id is removed, and every other entry keeps its multiplicity |
| `Admin.WithoutKeepsOrder` | src/components/admin/AdminPanel.tsx:64 | Removal distributes over concatenation, so the order of what remains is kept |
| `Admin.WithoutAbsentIsIdentity` | src/components/admin/AdminPanel.tsx:81 | Removing an id that is absent changes nothing |
| `Admin.FetchData` | src/components/admin/AdminPanel.tsx:20-34 | Each list is replaced only when rows came back; loading always ends |
| `Admin.RefetchIsStable` | src/components/admin/AdminPanel.tsx:27-28 | A second fetch with the same answers changes nothing, and a query without data keeps its list while the other is still replaced |
| `Admin.UpdateUserRole` | src/components/admin/AdminPanel.tsx:36-51 | On success only the users with the id take the new role, with length and order preserved. On error the list is unchanged |
| `Admin.DeleteUser` | src/components/admin/AdminPanel.tsx:53-68 | An unconfirmed or failed delete changes nothing. Otherwise the result is the order-keeping filter `Admin.Without`: exactly the users with the id are gone, every other user keeps its multiplicity, and the rest stay in order |
| `Admin.DeleteProject` | src/components/admin/AdminPanel.tsx:70-85 | An unconfirmed or failed delete changes nothing. Otherwise the result is the order-keeping filter `Admin.Without`: exactly the projects with the id are gone, every other project keeps its multiplicity, and the rest stay in order |
| `Admin.ToggleProjectVisibility` | src/components/admin/AdminPanel.tsx:87-102 | On success, matching projects get the negation of the flag passed in; the others are unchanged. On error nothing changes |
| `Admin.ToggleFlipsCurrentFlag` | src/components/admin/AdminPanel.tsx:96-98 | Called with the project's current flag, the switch flips that project only |
| `Admin.RowClick` | src/components/admin/AdminPanel.tsx:245-250 | Another user's row swaps admin and user. The signed-in admin's own row does nothing |
| `Admin.DropdownShown` | src/components/admin/AdminPanel.tsx:293 | The role dropdown is hidden exactly on the signed-in admin's own row |
| `Admin.DropdownChange` | src/components/admin/AdminPanel.tsx:294-296 | Choosing a role in a shown dropdown, when the update succeeds, sets exactly that user's role; otherwise nothing changes |
| `Admin.UpdateUserRoleLastWins` | src/components/admin/AdminPanel.tsx:45-47 | Of two successful role updates of one user, the later one decides |
| `Admin.DropdownChoiceOverridesRowClick` | src/components/admin/AdminPanel.tsx:245-296 | The click that opens a dropdown also swaps the role through the row handler; a choice made afterwards replaces that swap |
| `Admin.SelfRowProtected` | src/components/admin/AdminPanel.tsx:246 | Clicking one's own row never changes the list |
| `Admin.RolesPartitionUsers` | src/config/supabase.ts:8 | Every user has exactly one of the three roles |
| `Admin.Count` | src/components/admin/AdminPanel.tsx:108-115 | A filtered count is zero iff no entry qualifies, and equals the length iff all do |
| `Admin.VisibilityPartitionsProjects` | src/components/admin/AdminPanel.tsx:113-114 | Every project is either public or private |
| `Admin.ComputeStats` | src/components/admin/AdminPanel.tsx:108-115 | Totals are the list lengths. Admin and regular users are the counts of those roles, and public and private projects the counts of each flag. Public plus private equals total projects, and admins plus regular users plus guests equals total users |
| `Admin.ShownDescription` | src/components/admin/AdminPanel.tsx:354-358 | An empty or missing description shows nothing. One over 50 characters shows its first 50 plus `...`. Shorter ones show as they are |
| `Auth.RoleFlags` | src/contexts/AuthContext.tsx:216-217 | `isAdmin` holds iff the role is admin, and `isGuest` iff it is guest. Never both, and neither without a profile |
| `Auth.FetchUserProfile` | src/contexts/AuthContext.tsx:122-175 | An error other than PGRST116, or an exception, gives a `user` profile named "User". Data is taken unchanged. No data gives a `user` profile named "New User". Loading ends on every path |
| `Auth.FetchNeverGrantsAdmin` | src/contexts/AuthContext.tsx:132-174 | The admin (or guest) flag can only come from data the database returned |
| `Auth.JoinAsGuest` | src/contexts/AuthContext.tsx:202-214 | The profile has id `guest`, role guest and name "Guest User"; loading ends |
| `Auth.OnAuthChange` | src/contexts/AuthContext.tsx:88-112 | No effect after unmount. No user clears the profile and ends loading. A user triggers the profile fetch |
| `Auth.InitializeAuth` | src/contexts/AuthContext.tsx:52-81 | When mounted, loading ends on every path. With a session user the result is exactly the profile fetch for that user. Without one the profile is kept, and an exception keeps user and profile |
| `Auth.LoadingTimeout` | src/contexts/AuthContext.tsx:43-49 | The timer ends loading and leaves user and profile alone |
| `Auth.StartupSettles` | src/contexts/AuthContext.tsx:52-81 | From the initial state, startup always ends loading; an admin flag afterwards comes from database data |
| `SignUp.Check` | src/components/auth/SignUpScreen.tsx:27-37 | A mismatch is reported before a short password, and no error means both checks pass |
| `SignUp.HandleSubmit` | src/components/auth/SignUpScreen.tsx:21-48 | `signUp` is called, with the form's fields, iff both checks pass. Afterwards the service's error or the success text is shown. Loading ends whenever `signUp` settles |
| `SignUp.MessagesExclusive` | src/components/auth/SignUpScreen.tsx:23-45 | Error and success are never shown together, and a mismatch wins over a short password |
| `CorsProxy.FromEntries` | supabase/functions/cors-proxy/index.ts:32-36 | Every entry's name is present, each with a value from one of its entries |
| `CorsProxy.FromEntriesLastWins` | supabase/functions/cors-proxy/index.ts:32-36 | For a repeated name, the value of its last entry wins |
| `CorsProxy.Drop` | supabase/functions/cors-proxy/index.ts:33-35 | Exactly the entries whose lower-cased name is not denied remain |
| `CorsProxy.Get` | supabase/functions/cors-proxy/index.ts:38-42 | Header lookup ignores case and returns a matching entry's value |
| `CorsProxy.ForwardHeaders` | supabase/functions/cors-proxy/index.ts:30-44 | No forwarded name is host, origin or referer, in any case. Every other incoming header is forwarded. A non-empty authorization is added as `Authorization`, and a non-empty apikey as `apikey`. Every forwarded value is an incoming entry's, except that `Authorization` and `apikey` may carry the incoming non-empty authorization or apikey value |
| `CorsProxy.AuthorizationSentTwice` | supabase/functions/cors-proxy/index.ts:32-40 | A request with one non-empty `authorization` value ends up with it under both spellings of the name |
| `CorsProxy.ResponseHeaders` | supabase/functions/cors-proxy/index.ts:52-58 | The CORS headers are overlaid by upstream headers, minus set-cookie, connection, keep-alive and proxy-authenticate. Upstream wins on a clash |
| `CorsProxy.Serve` | supabase/functions/cors-proxy/index.ts:6-72 | OPTIONS answers `ok` and forwards nothing. A missing or empty `url` gives 400 with a JSON error. Otherwise method and target are kept, and the body is forwarded iff the method is neither GET nor HEAD. Upstream status and status text are copied, and an exception gives 500 with its message |
| `CorsProxy.NothingDeniedPasses` | supabase/functions/cors-proxy/index.ts:33-57 | No denied request header is forwarded. No denied upstream header is returned unless it was already a CORS header |
| `Strings.ReplaceFirst` | src/components/projects/UploadModal.tsx:25 | Only the first exact occurrence is replaced, and a string without the pattern is unchanged |
| `Strings.IntToStringRoundTrip` | src/components/viewer/ComponentPanel.tsx:35 | An integer's decimal text reads back to the same integer |

## Left out

- Rendering: the WebGL renderer, the animation loop, resize arithmetic (floating-point aspect), `fitCameraToObject`, `createBoundingBoxHelper`, `getObjectCenter` and `createTextSprite`. Only node-tree and material bookkeeping is modelled; light intensities and camera values are plain real literals.
- The XR runtime's internals: `setSession` and `requestSession` are modelled only as succeeding or failing, and `isSessionSupported` as an answer per mode. The alert text is omitted; its re-query is modelled only as whether one of its three calls throws (`XrSession.AlertCanShow`). The manual check button and console logging are omitted.
- Supabase: every query, storage call and auth call is an oracle answer. The network, persistence and row-level security are not modelled. The database's order among rows with equal `created_at` is not modelled; the reference query fixes one such order.
- Timers: the 500 ms probe delay, the 2 s profile timer (its effect equals `Auth.LoadingTimeout`), the 60 s upload timer and the Dashboard's 100 ms delay. `Auth.LoadingTimeout` stands for the 3 s loading timer as an event.
- `Date.now()`, `Math.random()` and `new Date().toISOString()`: parameters (`stamp`, `token`, `now`). The token's base-36 alphabet is not modelled.
- String semantics: `toLowerCase` is modelled on ASCII letters only, and string length counts characters rather than UTF-16 code units.
- `FormatPropertyValue` treats numbers as integers; the property bag's floating-point numbers are not modelled.
- `signIn`, `signUp` and `signOut` in the auth context are one-line pass-throughs to the auth service; their answers appear as oracles in `SignUp.HandleSubmit` and `Auth.OnAuthChange`.
- The `corsHeaders` object comes from a shared module that is not part of this model; it is a parameter. The runtime's merging of two header names that differ only in case into one header is not modelled; `CorsProxy.AuthorizationSentTwice` states the object that is handed to it.
- `CorsProxy.Serve`: the default status text of the 200, 400 and 500 responses is the empty string. The JSON bodies are modelled as a `JsonError` value, not as serialized text.
- XrSession.Initialize: the viewer state holds no camera, so the camera stored before a WebGL failure (and after a success) is not modelled; `SceneSetup.ViewerCamera` states the camera itself.
- Shared materials: a material is modelled as a value owned by one slot. In three.js one material object can sit in several meshes' slots, or in one mesh's slot and another's saved original; disposing or switching the wireframe of it through one mesh then also changes the others. Such aliasing is not modelled, so `SceneTree.Dispose` keeping saved originals holds only for materials that are not shared.
- `XrSession.Enter`: the caught error object is only logged by the code; the model keeps just its cause (`XrError`: no compatible mode, a throwing query, a rejected request or a failed `setSession`).
- Upload: the 60-second timer's own error message is omitted (timers, above). The file size and contents are not modelled; a file is represented by its name.
- XrSession.Cleanup: whether the mount element is still attached is the `mounted` parameter. On unmount React has usually detached the element's ref already, so the renderer is then probably not removed or disposed; on a change of project it is.
- Admin.DropdownChoiceOverridesRowClick: the order in which the two asynchronous role updates complete is not modelled. Nor is the `users` list that each handler captured from its render. The lemma takes the swap to land before the choice is made.
- Admin.FetchData: the two queries run under one `Promise.all`, so an exception in either keeps both lists; in the model that is the answer with no data for both.
- `src/utils/ifcHelpers.ts` returns hard-coded placeholders. `src/contexts/MockAuthContext.tsx` is an unused stub.
- Routing and presentational components (App, SimpleApp, Header, ProjectCard, ARControls, Login, LoginScreen, ErrorBoundary, LoadingSpinner, LoadingTimeout, ViewerError, TestApp, BIMViewer) and the Node scripts and conversion service are not modelled: they contain no decision rules of the core.
- Behaviour the code does not have is not claimed: no nested property flattening, no render-loop suspension on XR entry, and no reuse of highlight materials (each call allocates new ones).

=== FILE: admin.dfy ===
/** The admin panel's local lists: loading them, the role change, the two
    confirmed deletions and the visibility switch, each applied locally only
    when the database call succeeded; the guard on the signed-in admin's own
    row; the statistics; and the shortened project description. */
module Admin {
  import opened Common
  import opened Strings
  import opened Records

  // ---------------------------------------------------------------------
  // Generic list updates by id

  /** `xs.map(x => key(x) === id ? change(x) : x)`. */
  function MapWhere<T>(xs: seq<T>, key: T -> string, id: string, change: T -> T): (r: seq<T>)
    ensures |r| == |xs|
    ensures forall i :: 0 <= i < |xs| ==> r[i] == if key(xs[i]) == id then change(xs[i]) else xs[i]
  {
    if xs == [] then [] else [if key(xs[0]) == id then change(xs[0]) else xs[0]] + MapWhere(xs[1..], key, id, change)
  }

  /** `xs.filter(x => key(x) !== id)`. */
  function Without<T(==,!new)>(xs: seq<T>, key: T -> string, id: string): (r: seq<T>)
    ensures forall x :: x in r <==> x in xs && key(x) != id
  {
    if xs == [] then []
    else
      assert xs == [xs[0]] + xs[1..];
      (if key(xs[0]) == id then [] else [xs[0]]) + Without(xs[1..], key, id)
  }

  /** Removal drops every copy of the entries with the id and keeps every
      copy of the others. */
  lemma {:induction false} WithoutCounts<T(!new)>(xs: seq<T>, key: T -> string, id: string)
    ensures forall x :: multiset(Without(xs, key, id))[x] == if key(x) == id then 0 else multiset(xs)[x]
    decreases |xs|
  {
    if xs != [] {
      assert xs == [xs[0]] + xs[1..];
      WithoutCounts(xs[1..], key, id);
    }
  }

  /** Removal keeps the order of what remains: it distributes over
      concatenation. */
  lemma {:induction false} WithoutKeepsOrder<T(!new)>(a: seq<T>, b: seq<T>, key: T -> string, id: string)
    ensures Without(a + b, key, id) == Without(a, key, id) + Without(b, key, id)
    decreases |a|
  {
    if a == [] {
      assert a + b == b;
    } else {
      var head := if key(a[0]) == id then [] else [a[0]];
      assert (a + b)[0] == a[0];
      assert (a + b)[1..] == a[1..] + b;
      WithoutKeepsOrder(a[1..], b, key, id);
    }
  }

  /** A list without the id is left exactly as it was. */
  lemma {:induction false} WithoutAbsentIsIdentity<T(!new)>(xs: seq<T>, key: T -> string, id: string)
    requires forall i :: 0 <= i < |xs| ==> key(xs[i]) != id
    ensures Without(xs, key, id) == xs
    decreases |xs|
  {
    if xs != [] {
      WithoutAbsentIsIdentity(xs[1..], key, id);
    }
  }

  function UserId(u: UserProfile): string { u.id }
  function ProjectId(p: BIMProject): string { p.id }

  // ---------------------------------------------------------------------
  // The panel's operations

  datatype Lists = Lists(users: seq<UserProfile>, projects: seq<BIMProject>, loading: bool)

  /** `fetchData`: each list is replaced when its query returned rows, and
      loading ends whatever happened (`None` stands for no data, an error or
      an exception). */
  function FetchData(l: Lists, usersData: Option<seq<UserProfile>>, projectsData: Option<seq<BIMProject>>): (r: Lists)
    ensures !r.loading
    ensures r.users == usersData.GetOr(l.users)
    ensures r.projects == projectsData.GetOr(l.projects)
  {
    Lists(usersData.GetOr(l.users), projectsData.GetOr(l.projects), false)
  }

  /** Loading is stable: a second fetch answered the same way changes
      nothing, and a query that returned nothing leaves its list as it was
      while the other list is still replaced. */
  lemma RefetchIsStable(l: Lists, usersData: Option<seq<UserProfile>>, projectsData: Option<seq<BIMProject>>)
    ensures var once := FetchData(l, usersData, projectsData);
      FetchData(once, usersData, projectsData) == once
    ensures FetchData(l, None, projectsData).users == l.users
    ensures FetchData(l, usersData, None).projects == l.projects
    ensures FetchData(l, None, None) == l.(loading := false)
  {
  }

  /** `updateUserRole`: after a successful update every user with the id
      takes the new role and nobody else changes; on an error the list is
      kept. The role written is admin or user. */
  function UpdateUserRole(users: seq<UserProfile>, userId: string, newRole: Role, ok: bool): (r: seq<UserProfile>)
    requires newRole != Guest
    ensures |r| == |users|
    ensures !ok ==> r == users
    ensures ok ==> forall i :: 0 <= i < |users| ==>
      r[i] == if users[i].id == userId then users[i].(role := newRole) else users[i]
  {
    if ok then MapWhere(users, UserId, userId, (u: UserProfile) => u.(role := newRole)) else users
  }

  /** `deleteUser`: unconfirmed or failed, nothing changes; otherwise
      exactly the users with the id are gone, and the rest keep their order. */
  function DeleteUser(users: seq<UserProfile>, userId: string, confirmed: bool, ok: bool): (r: seq<UserProfile>)
    ensures !confirmed || !ok ==> r == users
    ensures confirmed && ok ==> r == Without(users, UserId, userId)
    ensures confirmed && ok ==> forall u :: u in r <==> u in users && u.id != userId
    ensures confirmed && ok ==> forall u :: multiset(r)[u] == if u.id == userId then 0 else multiset(users)[u]
  {
    if !confirmed || !ok then users else WithoutCounts(users, UserId, userId); Without(users, UserId, userId)
  }

  /** `deleteProject`: unconfirmed or failed, nothing changes; otherwise
      exactly the projects with the id are gone, and the rest keep their order. */
  function DeleteProject(projects: seq<BIMProject>, projectId: string, confirmed: bool, ok: bool): (r: seq<BIMProject>)
    ensures !confirmed || !ok ==> r == projects
    ensures confirmed && ok ==> r == Without(projects, ProjectId, projectId)
    ensures confirmed && ok ==> forall p :: p in r <==> p in projects && p.id != projectId
    ensures confirmed && ok ==> forall p :: multiset(r)[p] == if p.id == projectId then 0 else multiset(projects)[p]
  {
    if !confirmed || !ok then projects else WithoutCounts(projects, ProjectId, projectId); Without(projects, ProjectId, projectId)
  }

  /** `toggleProjectVisibility(id, isPublic)`: on success the projects with
      the id get the negation of the flag PASSED IN; the rest are unchanged. */
  function ToggleProjectVisibility(projects: seq<BIMProject>, projectId: string, isPublic: bool, ok: bool): (r: seq<BIMProject>)
    ensures |r| == |projects|
    ensures !ok ==> r == projects
    ensures ok ==> forall i :: 0 <= i < |projects| ==>
      r[i] == if projects[i].id == projectId then projects[i].(isPublic := !isPublic) else projects[i]
  {
    if ok then MapWhere(projects, ProjectId, projectId, (p: BIMProject) => p.(isPublic := !isPublic)) else projects
  }

  /** Called, as the table does, with the project's current flag, the switch
      flips that project and leaves every other one alone. */
  lemma ToggleFlipsCurrentFlag(projects: seq<BIMProject>, i: nat)
    requires i < |projects|
    requires forall j :: 0 <= j < |projects| && j != i ==> projects[j].id != projects[i].id
    ensures var r := ToggleProjectVisibility(projects, projects[i].id, projects[i].isPublic, true);
      && r[i].isPublic == !projects[i].isPublic
      && r[i].(isPublic := projects[i].isPublic) == projects[i]
      && forall j :: 0 <= j < |projects| && j != i ==> r[j] == projects[j]
  {
  }

  /** Whether the role dropdown is rendered on a row: on every row but the
      signed-in admin's own. */
  function DropdownShown(me: Option<UserProfile>, row: UserProfile): (r: bool)
    ensures me.Some? && row.id == me.value.id ==> !r
    ensures me.None? || row.id != me.value.id ==> r
  {
    me.None? || row.id != me.value.id
  }

  /** Two successful role updates of the same user: the later one wins. */
  lemma UpdateUserRoleLastWins(users: seq<UserProfile>, userId: string, a: Role, b: Role)
    requires a != Guest && b != Guest
    ensures UpdateUserRole(UpdateUserRole(users, userId, a, true), userId, b, true)
         == UpdateUserRole(users, userId, b, true)
  {
  }

  /** Choosing `choice` (user or admin) in a row's dropdown: the role update
      for that row's user, when the dropdown is rendered at all. */
  function DropdownChange(users: seq<UserProfile>, me: Option<UserProfile>, row: UserProfile, choice: Role, ok: bool): (r: seq<UserProfile>)
    requires choice != Guest
    ensures !DropdownShown(me, row) || !ok ==> r == users
    ensures |r| == |users|
    ensures DropdownShown(me, row) && ok ==> forall i :: 0 <= i < |users| ==>
      r[i] == if users[i].id == row.id then users[i].(role := choice) else users[i]
  {
    if DropdownShown(me, row) then UpdateUserRole(users, row.id, choice, ok) else users
  }

  /** The dropdown sits inside the clickable row, so the click that opens it
      also runs the row's admin/user swap. When both updates succeed and the
      choice is made after the swap, the choice is what remains. */
  lemma DropdownChoiceOverridesRowClick(users: seq<UserProfile>, me: Option<UserProfile>, row: UserProfile, choice: Role)
    requires choice != Guest
    requires DropdownShown(me, row)
    ensures DropdownChange(RowClick(users, me, row, true).0, me, row, choice, true)
         == UpdateUserRole(users, row.id, choice, true)
  {
    UpdateUserRoleLastWins(users, row.id, if row.role == Admin then User else Admin, choice);
  }

  /** A click on a user row: on another user's row the role swaps between
      admin and user (anything not admin becomes admin); on the signed-in
      admin's own row nothing happens. Returns the list and the update
      requested, if any. */
  function RowClick(users: seq<UserProfile>, me: Option<UserProfile>, row: UserProfile, ok: bool): (r: (seq<UserProfile>, Option<(string, Role)>))
    ensures !DropdownShown(me, row) ==> r == (users, None)
    ensures DropdownShown(me, row) ==> r.1 == Some((row.id, if row.role == Admin then User else Admin))
    ensures DropdownShown(me, row) ==> r.0 == UpdateUserRole(users, row.id, r.1.value.1, ok)
    ensures r.1.Some? ==> r.1.value.1 != row.role || row.role == Guest
  {
    if me.Some? && row.id == me.value.id then (users, None)
    else
      var newRole := if row.role == Admin then User else Admin;
      (UpdateUserRole(users, row.id, newRole, ok), Some((row.id, newRole)))
  }

  /** The signed-in admin can never change their own role by clicking: every
      row with their id keeps its profile. */
  lemma SelfRowProtected(users: seq<UserProfile>, me: UserProfile, row: UserProfile, ok: bool)
    requires row.id == me.id
    ensures RowClick(users, Some(me), row, ok).0 == users
  {
  }

  // ---------------------------------------------------------------------
  // Statistics

  /** The number of entries satisfying `p`: the length of `xs.filter(p)`. */
  function Count<T>(xs: seq<T>, p: T -> bool): (r: nat)
    ensures r <= |xs|
    ensures r == 0 <==> forall i :: 0 <= i < |xs| ==> !p(xs[i])
    ensures r == |xs| <==> forall i :: 0 <= i < |xs| ==> p(xs[i])
  {
    if xs == [] then 0 else (if p(xs[0]) then 1 else 0) + Count(xs[1..], p)
  }

  function HasRole(role: Role): UserProfile -> bool {
    (u: UserProfile) => u.role == role
  }

  function HasVisibility(isPublic: bool): BIMProject -> bool {
    (p: BIMProject) => p.isPublic == isPublic
  }

  /** Every user has exactly one of the three roles. */
  lemma {:induction false} RolesPartitionUsers(users: seq<UserProfile>)
    ensures Count(users, HasRole(Admin)) + Count(users, HasRole(User)) + Count(users, HasRole(Guest)) == |users|
  {
    if users != [] {
      RolesPartitionUsers(users[1..]);
    }
  }

  /** Every project is either public or private. */
  lemma {:induction false} VisibilityPartitionsProjects(projects: seq<BIMProject>)
    ensures Count(projects, HasVisibility(true)) + Count(projects, HasVisibility(false)) == |projects|
  {
    if projects != [] {
      VisibilityPartitionsProjects(projects[1..]);
    }
  }

  datatype Stats = Stats(
    totalUsers: nat,
    adminUsers: nat,
    regularUsers: nat,
    totalProjects: nat,
    publicProjects: nat,
    privateProjects: nat)

  /** The statistics cards: public and private projects add up to the total;
      admins and regular users add up to the total less the guests. */
  function ComputeStats(users: seq<UserProfile>, projects: seq<BIMProject>): (r: Stats)
    ensures r.totalUsers == |users| && r.totalProjects == |projects|
    ensures r.publicProjects + r.privateProjects == r.totalProjects
    ensures r.adminUsers + r.regularUsers + Count(users, HasRole(Guest)) == r.totalUsers
    ensures r.adminUsers + r.regularUsers <= r.totalUsers
    ensures r.adminUsers == Count(users, HasRole(Admin)) && r.regularUsers == Count(users, HasRole(User))
    ensures r.publicProjects == Count(projects, HasVisibility(true))
    ensures r.privateProjects == Count(projects, HasVisibility(false))
  {
    RolesPartitionUsers(users);
    VisibilityPartitionsProjects(projects);
    Stats(|users|, Count(users, HasRole(Admin)), Count(users, HasRole(User)),
          |projects|, Count(projects, HasVisibility(true)), Count(projects, HasVisibility(false)))
  }

  // ---------------------------------------------------------------------
  // Description column

  const DescriptionLimit: nat := 50

  /** The project table's description: absent or empty shows nothing; more
      than 50 characters shows the first 50 followed by `...`. */
  function ShownDescription(description: Option<string>): (r: Option<string>)
    ensures description.None? || description == Some("") <==> r.None?
    ensures r.Some? ==> |r.value| <= DescriptionLimit + 3
    ensures r.Some? && |description.value| <= DescriptionLimit ==> r == description
    ensures r.Some? && |description.value| > DescriptionLimit ==>
      && |r.value| == DescriptionLimit + 3
      && r.value[..DescriptionLimit] == description.value[..DescriptionLimit]
      && EndsWith(r.value, "...")
  {
    match description
    case None => None
    case Some(d) =>
      if d == "" then None
      else if |d| > DescriptionLimit then Some(Prefix(d, DescriptionLimit) + "...")
      else Some(d)
  }
}

=== FILE: auth.dfy ===
/** The authentication context: the role flags derived from the profile, the
    profile chosen for each outcome of the profile fetch, guest entry, and
    the handlers for the initial session and for auth state changes. The
    auth service and the database are oracles whose answers are parameters;
    `now` stands for the timestamp the code reads from the clock. */
module Auth {
  import opened Common
  import opened Records

  /** The error code the database returns when `.single()` finds no row. */
  const NoRowsCode: string := "PGRST116"

  /** What the context holds: the signed-in user's id, the profile, and the
      two loading flags. */
  datatype AuthState = AuthState(
    userId: Option<string>,
    profile: Option<UserProfile>,
    loading: bool,
    initialized: bool)

  /** The provider's state when it mounts. */
  function Initial(): AuthState {
    AuthState(None, None, true, false)
  }

  /** `isAdmin` and `isGuest`, read off the profile's role. */
  predicate IsAdmin(s: AuthState) {
    s.profile.Some? && s.profile.value.role == Admin
  }

  predicate IsGuest(s: AuthState) {
    s.profile.Some? && s.profile.value.role == Guest
  }

  /** The two flags for a profile: each holds exactly when the profile has
      that role, so they are never both set, and neither is set without a
      profile. */
  function RoleFlags(profile: Option<UserProfile>): (r: (bool, bool))
    ensures r.0 <==> profile.Some? && RoleName(profile.value.role) == "admin"
    ensures r.1 <==> profile.Some? && RoleName(profile.value.role) == "guest"
    ensures !(r.0 && r.1)
    ensures profile.None? ==> !r.0 && !r.1
  {
    var s := AuthState(None, profile, false, true);
    (IsAdmin(s), IsGuest(s))
  }

  /** The outcome of the profile query: a response carrying data and an
      optional error code, or an exception. */
  datatype FetchOutcome =
    | Response(data: Option<UserProfile>, errorCode: Option<string>)
    | Threw

  /** The profile the context makes up when it has none from the database. */
  function DefaultProfile(userId: string, name: string, now: string): UserProfile {
    UserProfile(userId, None, User, Some(name), None, now, now)
  }

  /** `fetchUserProfile`: an error other than "no rows" and an exception
      both give a plain `User` profile named "User"; returned data is taken
      as it is; otherwise a plain profile named "New User". Every outcome
      ends loading. */
  function FetchUserProfile(s: AuthState, userId: string, outcome: FetchOutcome, now: string): (r: AuthState)
    ensures !r.loading && r.initialized
    ensures r.userId == s.userId && r.profile.Some?
    ensures outcome.Threw? ==> r.profile == Some(DefaultProfile(userId, "User", now))
    ensures outcome.Response? && outcome.errorCode.Some? && outcome.errorCode.value != NoRowsCode ==>
      r.profile == Some(DefaultProfile(userId, "User", now))
    ensures outcome.Response? && (outcome.errorCode.None? || outcome.errorCode.value == NoRowsCode) ==>
      r.profile == if outcome.data.Some? then outcome.data else Some(DefaultProfile(userId, "New User", now))
    ensures (outcome.Threw? || r.profile != outcome.data) ==> r.profile.value.id == userId && r.profile.value.role == User
  {
    var profile :=
      match outcome
      case Threw => DefaultProfile(userId, "User", now)
      case Response(data, code) =>
        if code.Some? && code.value != NoRowsCode then DefaultProfile(userId, "User", now)
        else if data.Some? then data.value
        else DefaultProfile(userId, "New User", now);
    s.(profile := Some(profile), loading := false, initialized := true)
  }

  /** No made-up profile is an administrator: the context reports an admin
      only when the database returned an admin profile. */
  lemma FetchNeverGrantsAdmin(s: AuthState, userId: string, outcome: FetchOutcome, now: string)
    ensures var r := FetchUserProfile(s, userId, outcome, now);
      IsAdmin(r) ==> outcome.Response? && outcome.data.Some? && outcome.data.value.role == Admin
                     && r.profile == outcome.data
    ensures var r := FetchUserProfile(s, userId, outcome, now);
      IsGuest(r) ==> outcome.Response? && outcome.data == r.profile
  {
  }

  /** `joinAsGuest`: the shared guest profile, and loading ends. */
  function JoinAsGuest(s: AuthState, now: string): (r: AuthState)
    ensures IsGuest(r) && !IsAdmin(r)
    ensures r.profile.value.id == "guest" && r.profile.value.fullName == Some("Guest User")
    ensures !r.loading && r.initialized
    ensures r.userId == s.userId
  {
    s.(profile := Some(UserProfile("guest", None, Guest, Some("Guest User"), None, now, now)),
       loading := false, initialized := true)
  }

  /** The auth state change listener. `session` is the signed-in user's id,
      if any. After unmount the listener does nothing. With a user it
      records them and fetches their profile; without one it clears the
      profile and ends loading. */
  function OnAuthChange(s: AuthState, mounted: bool, session: Option<string>, fetch: FetchOutcome, now: string): (r: AuthState)
    ensures !mounted ==> r == s
    ensures mounted ==> r.userId == session && !r.loading && r.initialized
    ensures mounted && session.None? ==> r.profile.None? && !IsAdmin(r) && !IsGuest(r)
    ensures mounted && session.Some? ==> r == FetchUserProfile(s.(userId := session), session.value, fetch, now)
  {
    if !mounted then s
    else
      var s1 := s.(userId := session);
      match session
      case Some(id) => FetchUserProfile(s1, id, fetch, now)
      case None => s1.(profile := None, loading := false, initialized := true)
  }

  /** The answer to the initial session request. */
  datatype SessionOutcome = Session(user: Option<string>) | SessionThrew

  /** `initializeAuth`: with a session user the profile is fetched; without
      one loading simply ends, and an exception ends it too. Nothing happens
      once the provider has unmounted. */
  function InitializeAuth(s: AuthState, mounted: bool, session: SessionOutcome, fetch: FetchOutcome, now: string): (r: AuthState)
    ensures !mounted ==> r == s
    ensures mounted ==> !r.loading && r.initialized
    ensures mounted && session.SessionThrew? ==> r.userId == s.userId && r.profile == s.profile
    ensures mounted && session.Session? ==> r.userId == session.user
    ensures mounted && session.Session? && session.user.None? ==> r.profile == s.profile
    ensures mounted && session.Session? && session.user.Some? ==>
      r == FetchUserProfile(s.(userId := session.user), session.user.value, fetch, now)
  {
    if !mounted then s
    else match session
      case SessionThrew => s.(loading := false, initialized := true)
      case Session(user) =>
        var s1 := s.(userId := user);
        if user.Some? then FetchUserProfile(s1, user.value, fetch, now)
        else s1.(loading := false, initialized := true)
  }

  /** The three-second loading timer: it ends loading and leaves the rest. */
  function LoadingTimeout(s: AuthState, mounted: bool): (r: AuthState)
    ensures mounted ==> !r.loading && r.initialized && r.profile == s.profile && r.userId == s.userId
    ensures !mounted ==> r == s
  {
    if mounted then s.(loading := false, initialized := true) else s
  }

  /** Whatever the answers, a mounted provider is out of loading once the
      initial session has been handled, and an admin flag it then shows comes
      from the database. */
  lemma StartupSettles(mounted: bool, session: SessionOutcome, fetch: FetchOutcome, now: string)
    requires mounted
    ensures var r := InitializeAuth(Initial(), mounted, session, fetch, now);
      && !r.loading && r.initialized
      && (IsAdmin(r) ==> fetch.Response? && fetch.data.Some? && r.profile == fetch.data)
      && (session.SessionThrew? || (session.Session? && session.user.None?) ==> r.profile.None?)
  {
    var r := InitializeAuth(Initial(), mounted, session, fetch, now);
    if session.Session? && session.user.Some? {
      FetchNeverGrantsAdmin(Initial().(userId := session.user), session.user.value, fetch, now);
    }
  }
}

=== FILE: common.dfy ===
/** Shared value types: an optional value, standing in for JavaScript's
    `null`/`undefined`-or-value fields and refs. */
module Common {

  datatype Option<+T> = None | Some(value: T) {

    /** The contained value, or `default` when there is none
        (JavaScript's `x ?? default` on a nullable field). */
    function GetOr(default: T): T {
      match this
      case Some(v) => v
      case None => default
    }
  }
}

=== FILE: component_panel.dfy ===
/** The component details panel: how property values and statuses are
    shown, and the edit / cancel / save handling of the edited copy, whose
    footer guests never see. */
module ComponentPanel {
  import opened Common
  import opened Strings
  import opened Records

  // ---------------------------------------------------------------------
  // Status colour

  const SuccessColor: string := "var(--success-color)"
  const WarningColor: string := "var(--warning-color)"
  const DangerColor: string := "var(--danger-color)"
  const SecondaryTextColor: string := "var(--text-secondary)"

  /** `getStatusColor`. */
  function StatusColor(status: string): (r: string)
    ensures status == "good" ==> r == SuccessColor
    ensures status == "warning" ==> r == WarningColor
    ensures status == "critical" ==> r == DangerColor
    ensures status !in {"good", "warning", "critical"} ==> r == SecondaryTextColor
  {
    match status
    case "good" => SuccessColor
    case "warning" => WarningColor
    case "critical" => DangerColor
    case _ => SecondaryTextColor
  }

  /** The three statuses are told apart by colour, and none of them shares
      the colour of an unknown status. */
  lemma StatusColorsDistinct(a: string, b: string)
    requires a in {"good", "warning", "critical"}
    ensures StatusColor(a) != SecondaryTextColor
    ensures b != a ==> StatusColor(b) != StatusColor(a)
  {
  }

  // ---------------------------------------------------------------------
  // Property values

  /** Property access `obj[key]` on an object's own fields; a missing key
      reads as `undefined`. */
  function GetField(fields: seq<(string, JsValue)>, key: string): (r: JsValue)
    ensures r != JsUndefined ==> exists i :: 0 <= i < |fields| && fields[i] == (key, r)
    ensures (forall i :: 0 <= i < |fields| ==> fields[i].0 != key) ==> r == JsUndefined
  {
    if fields == [] then JsUndefined
    else if fields[0].0 == key then fields[0].1
    else
      var r := GetField(fields[1..], key);
      assert r != JsUndefined ==> exists i :: 0 <= i < |fields| - 1 && fields[1..][i] == (key, r);
      r
  }

  /** The `.value` member of a value of type `object` (arrays have none). */
  function InnerValue(v: JsValue): JsValue {
    match v
    case JsObject(fields) => GetField(fields, "value")
    case _ => JsUndefined
  }

  /** `String(v)` / `v.toString()`: arrays join their elements with commas,
      rendering `null` and `undefined` elements as empty; plain objects give
      `[object Object]`. */
  function ToJsString(v: JsValue): string {
    match v
    case JsNull => "null"
    case JsUndefined => "undefined"
    case JsBool(b) => if b then "true" else "false"
    case JsNumber(n) => IntToString(n)
    case JsString(s) => s
    case JsArray(items) => Join(items)
    case JsObject(_) => "[object Object]"
  }

  function Join(items: seq<JsValue>): string {
    if items == [] then ""
    else
      var head := if items[0] == JsNull || items[0] == JsUndefined then "" else ToJsString(items[0]);
      if |items| == 1 then head else head + "," + Join(items[1..])
  }

  /** `formatPropertyValue`: `null` and `undefined` show as `N/A`; an object
      with a defined `.value` shows that inner value as it is (one level only,
      not necessarily a string); anything else shows as its string form. */
  function FormatPropertyValue(v: JsValue): (r: JsValue)
    ensures v == JsNull || v == JsUndefined ==> r == JsString("N/A")
    ensures v.JsObject? && InnerValue(v) != JsUndefined ==> r == InnerValue(v)
    ensures !r.JsString? ==> v.JsObject? && r == InnerValue(v)
    ensures !v.JsObject? && v != JsNull && v != JsUndefined ==> r == JsString(ToJsString(v))
    ensures v.JsObject? && InnerValue(v) == JsUndefined ==> r == JsString("[object Object]")
  {
    if v == JsNull || v == JsUndefined then JsString("N/A")
    else if (v.JsArray? || v.JsObject?) && InnerValue(v) != JsUndefined then InnerValue(v)
    else JsString(ToJsString(v))
  }

  /** A string or number is shown so that it can be read back exactly. */
  lemma FormatPrimitivesFaithful(s: string, n: int)
    ensures FormatPropertyValue(JsString(s)) == JsString(s)
    ensures var shown := FormatPropertyValue(JsNumber(n)).s;
      if n < 0 then -(DecimalToNat(shown[1..]) as int) == n && AllDigits(shown[1..])
      else AllDigits(shown) && DecimalToNat(shown) == n
  {
    IntToStringRoundTrip(n);
  }

  /** Only one `.value` level is unwrapped: a doubly wrapped value comes out
      still wrapped once. */
  lemma FormatUnwrapsOneLevel(inner: JsValue)
    requires inner != JsUndefined
    ensures FormatPropertyValue(JsObject([("value", JsObject([("value", inner)]))]))
         == JsObject([("value", inner)])
  {
  }

  // ---------------------------------------------------------------------
  // Editing

  /** The statuses the edit form offers. */
  datatype Status = Good | Warning | Critical

  function StatusName(s: Status): string {
    match s
    case Good => "good"
    case Warning => "warning"
    case Critical => "critical"
  }

  /** The fields of a component record, for stating what an edit changes. */
  datatype Field =
    | IdField | ProjectIdField | ComponentIdField | NameField | KindField | PropertiesField
    | NotesField | LastInspectionField | NextInspectionField | StatusField | CreatedAtField | UpdatedAtField

  datatype FieldValue = Text(s: string) | OptText(o: Option<string>) | Props(p: seq<(string, JsValue)>)

  function FieldOf(c: ComponentInfo, f: Field): FieldValue {
    match f
    case IdField => Text(c.id)
    case ProjectIdField => Text(c.projectId)
    case ComponentIdField => Text(c.componentId)
    case NameField => Text(c.name)
    case KindField => Text(c.kind)
    case PropertiesField => Props(c.properties)
    case NotesField => OptText(c.maintenanceNotes)
    case LastInspectionField => OptText(c.lastInspection)
    case NextInspectionField => OptText(c.nextInspection)
    case StatusField => Text(c.status)
    case CreatedAtField => Text(c.createdAt)
    case UpdatedAtField => Text(c.updatedAt)
  }

  /** Two records that agree on every field are the same record. */
  lemma FieldsDetermineRecord(a: ComponentInfo, b: ComponentInfo)
    requires forall f :: FieldOf(a, f) == FieldOf(b, f)
    ensures a == b
  {
    assert FieldOf(a, IdField) == FieldOf(b, IdField);
    assert FieldOf(a, ProjectIdField) == FieldOf(b, ProjectIdField);
    assert FieldOf(a, ComponentIdField) == FieldOf(b, ComponentIdField);
    assert FieldOf(a, NameField) == FieldOf(b, NameField);
    assert FieldOf(a, KindField) == FieldOf(b, KindField);
    assert FieldOf(a, PropertiesField) == FieldOf(b, PropertiesField);
    assert FieldOf(a, NotesField) == FieldOf(b, NotesField);
    assert FieldOf(a, LastInspectionField) == FieldOf(b, LastInspectionField);
    assert FieldOf(a, NextInspectionField) == FieldOf(b, NextInspectionField);
    assert FieldOf(a, StatusField) == FieldOf(b, StatusField);
    assert FieldOf(a, CreatedAtField) == FieldOf(b, CreatedAtField);
    assert FieldOf(a, UpdatedAtField) == FieldOf(b, UpdatedAtField);
  }

  /** One change made in the edit form: the name input, the status select,
      the notes text area, or one of the two date inputs. */
  datatype FieldEdit =
    | EditName(name: string)
    | EditStatus(status: Status)
    | EditNotes(notes: string)
    | EditLastInspection(date: string)
    | EditNextInspection(date: string)

  function EditedField(e: FieldEdit): Field {
    match e
    case EditName(_) => NameField
    case EditStatus(_) => StatusField
    case EditNotes(_) => NotesField
    case EditLastInspection(_) => LastInspectionField
    case EditNextInspection(_) => NextInspectionField
  }

  /** The value the edited field holds afterwards. */
  function EditedValue(e: FieldEdit): FieldValue {
    match e
    case EditName(s) => Text(s)
    case EditStatus(st) => Text(StatusName(st))
    case EditNotes(s) => OptText(Some(s))
    case EditLastInspection(s) => OptText(Some(s))
    case EditNextInspection(s) => OptText(Some(s))
  }

  /** Applies one form change to a copy: exactly the edited field changes. */
  function ApplyEdit(c: ComponentInfo, e: FieldEdit): (r: ComponentInfo)
    ensures FieldOf(r, EditedField(e)) == EditedValue(e)
    ensures forall f :: f != EditedField(e) ==> FieldOf(r, f) == FieldOf(c, f)
  {
    match e
    case EditName(s) => c.(name := s)
    case EditStatus(st) => c.(status := StatusName(st))
    case EditNotes(s) => c.(maintenanceNotes := Some(s))
    case EditLastInspection(s) => c.(lastInspection := Some(s))
    case EditNextInspection(s) => c.(nextInspection := Some(s))
  }

  /** The panel: the component it was opened on, whether the form is open,
      and the edited copy. */
  datatype Panel = Panel(component: ComponentInfo, isEditing: bool, edited: ComponentInfo)

  /** A freshly opened panel: not editing, the copy equal to the component. */
  function Open(c: ComponentInfo): Panel {
    Panel(c, false, c)
  }

  datatype Button = EditButton | CancelButton | SaveButton

  /** The footer buttons: none for guests, Cancel and Save while editing,
      Edit otherwise. */
  function FooterButtons(isGuest: bool, isEditing: bool): (r: seq<Button>)
    ensures isGuest <==> r == []
    ensures !isGuest ==> (isEditing <==> SaveButton in r) && (isEditing <==> CancelButton in r)
    ensures !isGuest ==> (!isEditing <==> EditButton in r)
  {
    if isGuest then [] else if isEditing then [CancelButton, SaveButton] else [EditButton]
  }

  /** What the user can do: press a footer button, or change a form field
      (the form inputs exist only while editing). */
  datatype PanelEvent = Press(button: Button) | Change(edit: FieldEdit)

  /** The panel after one event, with the record passed to `onUpdate`, if any.
      Events on controls that are not on screen do nothing. */
  function Step(p: Panel, isGuest: bool, ev: PanelEvent): (r: (Panel, Option<ComponentInfo>))
    ensures r.0.component == p.component
    ensures r.1.Some? ==> !isGuest && p.isEditing && ev == Press(SaveButton) && r.1.value == p.edited
    ensures ev.Press? && ev.button == CancelButton && !isGuest && p.isEditing ==>
      r.0 == Panel(p.component, false, p.component)
    ensures ev.Change? && p.isEditing ==> r.0.edited == ApplyEdit(p.edited, ev.edit) && r.0.isEditing
    ensures isGuest && !p.isEditing ==> r == (p, None)
  {
    match ev
    case Press(b) =>
      if b !in FooterButtons(isGuest, p.isEditing) then (p, None)
      else (match b
        case EditButton => (p.(isEditing := true), None)
        case CancelButton => (p.(edited := p.component, isEditing := false), None)
        case SaveButton => (p.(isEditing := false), Some(p.edited)))
    case Change(e) =>
      if p.isEditing then (p.(edited := ApplyEdit(p.edited, e)), None) else (p, None)
  }

  /** The panel after a sequence of events, with every record passed to `onUpdate`. */
  function Run(p: Panel, isGuest: bool, evs: seq<PanelEvent>): (Panel, seq<ComponentInfo>)
    decreases |evs|
  {
    if evs == [] then (p, [])
    else
      var (p1, out1) := Step(p, isGuest, evs[0]);
      var (p2, outs) := Run(p1, isGuest, evs[1..]);
      (p2, (if out1.Some? then [out1.value] else []) + outs)
  }

  /** A guest can never open the form, change the copy or save anything. */
  lemma {:induction false} GuestNeverEdits(p: Panel, evs: seq<PanelEvent>)
    requires !p.isEditing
    ensures Run(p, true, evs) == (p, [])
    decreases |evs|
  {
    if evs != [] {
      assert Step(p, true, evs[0]) == (p, None);
      GuestNeverEdits(p, evs[1..]);
      assert Run(p, true, evs).1 == [];
    }
  }

  function ApplyEdits(c: ComponentInfo, es: seq<FieldEdit>): ComponentInfo
    decreases |es|
  {
    if es == [] then c else ApplyEdits(ApplyEdit(c, es[0]), es[1..])
  }

  /** One change event per edit, in order. */
  function Changes(es: seq<FieldEdit>): (r: seq<PanelEvent>)
    ensures |r| == |es|
    ensures forall i :: 0 <= i < |es| ==> r[i] == Change(es[i])
  {
    if es == [] then [] else [Change(es[0])] + Changes(es[1..])
  }

  lemma {:induction false} ChangesWhileEditing(p: Panel, isGuest: bool, es: seq<FieldEdit>)
    requires p.isEditing
    ensures Run(p, isGuest, Changes(es)) == (p.(edited := ApplyEdits(p.edited, es)), [])
    decreases |es|
  {
    if es != [] {
      var p1 := p.(edited := ApplyEdit(p.edited, es[0]));
      assert Changes(es)[0] == Change(es[0]);
      assert Changes(es)[1..] == Changes(es[1..]);
      assert Step(p, isGuest, Change(es[0])) == (p1, None);
      ChangesWhileEditing(p1, isGuest, es[1..]);
      assert ApplyEdits(p.edited, es) == ApplyEdits(p1.edited, es[1..]);
      assert Run(p, isGuest, Changes(es)).1 == [];
    }
  }

  /** Opening the form, making any changes and pressing Cancel leaves the
      form closed with the copy reset to the component; nothing is saved. */
  lemma CancelDiscardsEdits(c: ComponentInfo, es: seq<FieldEdit>)
    ensures var evs := [Press(EditButton)] + Changes(es) + [Press(CancelButton)];
      Run(Open(c), false, evs) == (Open(c), [])
  {
    var evs := [Press(EditButton)] + Changes(es) + [Press(CancelButton)];
    var editing := Panel(c, true, c);
    RunAppend(Open(c), false, [Press(EditButton)] + Changes(es), [Press(CancelButton)]);
    RunAppend(Open(c), false, [Press(EditButton)], Changes(es));
    ChangesWhileEditing(editing, false, es);
  }

  /** Opening the form, making changes and pressing Save hands exactly the
      changed copy to `onUpdate`, once, and closes the form. */
  lemma SaveHandsOverEdits(c: ComponentInfo, es: seq<FieldEdit>)
    ensures var evs := [Press(EditButton)] + Changes(es) + [Press(SaveButton)];
      var edited := ApplyEdits(c, es);
      Run(Open(c), false, evs) == (Panel(c, false, edited), [edited])
  {
    var editing := Panel(c, true, c);
    var edited := ApplyEdits(c, es);
    RunAppend(Open(c), false, [Press(EditButton)] + Changes(es), [Press(SaveButton)]);
    RunAppend(Open(c), false, [Press(EditButton)], Changes(es));
    assert Run(Open(c), false, [Press(EditButton)]) == (editing, []) by {
      assert Run(Open(c), false, [Press(EditButton)]).1 == [];
    }
    ChangesWhileEditing(editing, false, es);
    assert Run(Open(c), false, [Press(EditButton)] + Changes(es)) == (Panel(c, true, edited), []) by {
      assert Run(Open(c), false, [Press(EditButton)] + Changes(es)).0 == Panel(c, true, edited);
      assert Run(Open(c), false, [Press(EditButton)] + Changes(es)).1 == [];
    }
    var done := Panel(c, false, edited);
    assert Run(Panel(c, true, edited), false, [Press(SaveButton)]) == (done, [edited]) by {
      assert Step(Panel(c, true, edited), false, Press(SaveButton)) == (done, Some(edited));
      assert [Press(SaveButton)][1..] == [];
      assert Run(done, false, []).0 == done;
      assert Run(done, false, []).1 == [];
      assert Run(Panel(c, true, edited), false, [Press(SaveButton)]).0 == done;
      assert Run(Panel(c, true, edited), false, [Press(SaveButton)]).1 == [edited] + [];
      assert [edited] + [] == [edited];
      assert Run(Panel(c, true, edited), false, [Press(SaveButton)]).1 == [edited];
    }
    var evs := [Press(EditButton)] + Changes(es) + [Press(SaveButton)];
    assert Run(Open(c), false, evs).0 == done;
    assert Run(Open(c), false, evs).1 == [] + [edited];
    assert Run(Open(c), false, evs).1 == [edited];
  }

  lemma {:induction false} RunAppend(p: Panel, isGuest: bool, a: seq<PanelEvent>, b: seq<PanelEvent>)
    ensures var (pa, oa) := Run(p, isGuest, a);
      var (pb, ob) := Run(pa, isGuest, b);
      Run(p, isGuest, a + b) == (pb, oa + ob)
    decreases |a|
  {
    if a == [] {
      assert a + b == b;
      assert Run(p, isGuest, a).0 == p;
      assert Run(p, isGuest, a).1 == [];
      var (pb, ob) := Run(p, isGuest, b);
      assert Run(p, isGuest, a).1 + ob == ob;
    } else {
      assert (a + b)[0] == a[0];
      assert (a + b)[1..] == a[1..] + b;
      var (p1, out1) := Step(p, isGuest, a[0]);
      var first := if out1.Some? then [out1.value] else [];
      RunAppend(p1, isGuest, a[1..], b);
      var (pa, oa) := Run(p1, isGuest, a[1..]);
      var (pb, ob) := Run(pa, isGuest, b);
      assert Run(p1, isGuest, a[1..] + b) == (pb, oa + ob);
      assert Run(p, isGuest, a) == (pa, first + oa);
      assert Run(p, isGuest, a + b) == (pb, first + (oa + ob));
      assert first + (oa + ob) == (first + oa) + ob;
      assert Run(p, isGuest, a + b).1 == (first + oa) + ob;
    }
  }
}

=== FILE: cors_proxy.dfy ===
/** The CORS proxy edge function: preflight answer, the missing-target
    error, the request forwarded to the target (headers filtered, auth
    headers re-added, body only for methods that carry one), and the
    response handed back (status copied, CORS headers overlaid by the
    filtered upstream headers), with every exception turned into a 500.
    The upstream fetch is an oracle. Header objects are maps from name to
    value, built the way the code builds them: `Object.fromEntries` lets a
    later entry win, and a later spread overrides an earlier one. */
module CorsProxy {
  import opened Common
  import opened Strings

  const RequestDeny: set<string> := {"host", "origin", "referer"}
  const ResponseDeny: set<string> := {"set-cookie", "connection", "keep-alive", "proxy-authenticate"}
  const MissingTargetMessage: string := "Missing target URL parameter"

  type Entries = seq<(string, string)>
  type HeaderObject = map<string, string>

  /** A response body: plain text, a JSON `{ error }` object, the upstream
      body passed through, or none. */
  datatype Body = Text(text: string) | JsonError(message: string) | Passed(upstream: string) | NoBody

  /** An incoming request: verb, the `url` query parameter if present,
      header entries as the runtime lists them, and the body. */
  datatype Request = Request(verb: string, target: Option<string>, headers: Entries, body: string)

  /** The request the proxy sends on. */
  datatype Forwarded = Forwarded(verb: string, url: string, headers: HeaderObject, body: Option<string>)

  /** The upstream answer: a response, or an exception with its message. */
  datatype Upstream = Answered(status: int, statusText: string, headers: Entries, body: string) | Threw(message: string)

  datatype Response = Response(status: int, statusText: string, headers: HeaderObject, body: Body)

  // ---------------------------------------------------------------------
  // Header objects

  /** `Object.fromEntries(entries)`: every name appears, each with the value
      of one of its entries. */
  function FromEntries(es: Entries): (r: HeaderObject)
    ensures forall e :: e in es ==> e.0 in r
    ensures forall k :: k in r ==> (k, r[k]) in es
  {
    if es == [] then map[]
    else
      var init := es[..|es| - 1];
      var last := es[|es| - 1];
      assert es == init + [last];
      FromEntries(init)[last.0 := last.1]
  }

  /** The value kept for a name is that of its LAST entry. */
  lemma {:induction false} FromEntriesLastWins(es: Entries, i: nat)
    requires i < |es|
    requires forall j :: i < j < |es| ==> es[j].0 != es[i].0
    ensures FromEntries(es)[es[i].0] == es[i].1
    decreases |es|
  {
    if i < |es| - 1 {
      var init := es[..|es| - 1];
      assert init[i] == es[i];
      FromEntriesLastWins(init, i);
    }
  }

  /** The entries whose name, lower-cased, is not in `deny`, in order. */
  function Drop(es: Entries, deny: set<string>): (r: Entries)
    ensures forall e :: e in r <==> e in es && Lower(e.0) !in deny
    ensures |r| <= |es|
  {
    if es == [] then []
    else
      assert es == [es[0]] + es[1..];
      (if Lower(es[0].0) in deny then [] else [es[0]]) + Drop(es[1..], deny)
  }

  /** `headers.get(name)`: the first entry whose name matches ignoring case. */
  function Get(es: Entries, name: string): (r: Option<string>)
    ensures r.Some? ==> exists i :: 0 <= i < |es| && Lower(es[i].0) == Lower(name) && es[i].1 == r.value
    ensures r.None? <==> forall i :: 0 <= i < |es| ==> Lower(es[i].0) != Lower(name)
  {
    if es == [] then None
    else if Lower(es[0].0) == Lower(name) then Some(es[0].1)
    else
      var r := Get(es[1..], name);
      assert forall i :: 0 < i < |es| ==> es[i] == es[1..][i - 1];
      r
  }

  /** `...(value && { [key]: value })`: adds the key only for a non-empty value. */
  function AddIfTruthy(h: HeaderObject, key: string, value: Option<string>): (r: HeaderObject)
    ensures value.Some? && value.value != "" ==> r == h[key := value.value]
    ensures value.None? || value.value == "" ==> r == h
  {
    if value.Some? && value.value != "" then h[key := value.value] else h
  }

  /** The headers sent upstream: the incoming ones minus host, origin and
      referer, then `Authorization` and `apikey` copied from the request
      when they are non-empty. */
  function ForwardHeaders(es: Entries): (r: HeaderObject)
    ensures forall k :: k in r ==> Lower(k) !in RequestDeny
    ensures forall e :: e in es && Lower(e.0) !in RequestDeny ==> e.0 in r
    ensures forall k :: k in r ==>
      || (k, r[k]) in es
      || (k == "Authorization" && Get(es, "authorization") == Some(r[k]) && r[k] != "")
      || (k == "apikey" && Get(es, "apikey") == Some(r[k]) && r[k] != "")
    ensures var auth := Get(es, "authorization");
      auth.Some? && auth.value != "" ==> "Authorization" in r && r["Authorization"] == auth.value
    ensures var key := Get(es, "apikey");
      key.Some? && key.value != "" ==> "apikey" in r && r["apikey"] == key.value
  {
    LowerNames();
    AddAuthHeaders(Keep(es, RequestDeny), Get(es, "authorization"), Get(es, "apikey"))
  }

  /** The two spreads after the filtered entries: `Authorization` and then
      `apikey`, each only when non-empty. */
  function AddAuthHeaders(base: HeaderObject, auth: Option<string>, key: Option<string>): (r: HeaderObject)
    ensures forall k :: k in r ==>
      || (k in base && r[k] == base[k])
      || (k == "Authorization" && auth == Some(r[k]) && r[k] != "")
      || (k == "apikey" && key == Some(r[k]) && r[k] != "")
    ensures forall k :: k in base ==> k in r
    ensures forall k :: k in base && k != "Authorization" && k != "apikey" ==> r[k] == base[k]
    ensures auth.Some? && auth.value != "" ==> "Authorization" in r && r["Authorization"] == auth.value
    ensures key.Some? && key.value != "" ==> "apikey" in r && r["apikey"] == key.value
  {
    AddIfTruthy(AddIfTruthy(base, "Authorization", auth), "apikey", key)
  }

  /** The object built from the entries whose name is not denied. */
  function Keep(es: Entries, deny: set<string>): (r: HeaderObject)
    ensures forall k :: k in r ==> Lower(k) !in deny && (k, r[k]) in es
    ensures forall e :: e in es && Lower(e.0) !in deny ==> e.0 in r
  {
    var kept := Drop(es, deny);
    FromEntries(kept)
  }

  lemma LowerNames()
    ensures Lower("Authorization") == "authorization" && Lower("authorization") == "authorization"
    ensures Lower("apikey") == "apikey"
    ensures "authorization" !in RequestDeny && "apikey" !in RequestDeny
  {
    assert Lower("Authorization") == "authorization";
    assert Lower("authorization") == "authorization";
    assert Lower("apikey") == "apikey";
  }

  /** The runtime lists header names in lower case, so an `authorization`
      header reaches the target object under both spellings; the fetch then
      merges the two into one header carrying the value twice. This holds for
      any request that carries one non-empty authorization value. */
  lemma AuthorizationSentTwice(es: Entries, token: string)
    requires token != ""
    requires ("authorization", token) in es
    requires forall i :: 0 <= i < |es| && Lower(es[i].0) == "authorization" ==> es[i] == ("authorization", token)
    ensures var r := ForwardHeaders(es);
      && "authorization" in r && "Authorization" in r
      && r["authorization"] == token && r["Authorization"] == token
  {
    LowerNames();
    assert Get(es, "authorization") == Some(token);
  }

  /** The headers handed back: the CORS headers, overridden by the upstream
      headers other than set-cookie, connection, keep-alive and
      proxy-authenticate. */
  function ResponseHeaders(cors: HeaderObject, upstream: Entries): (r: HeaderObject)
    ensures forall k :: k in cors ==> k in r
    ensures forall k :: k in r ==> ((k, r[k]) in upstream && Lower(k) !in ResponseDeny) || (k in cors && r[k] == cors[k])
    ensures forall e :: e in upstream && Lower(e.0) !in ResponseDeny ==> e.0 in r && (e.0, r[e.0]) in upstream
  {
    cors + Keep(upstream, ResponseDeny)
  }

  // ---------------------------------------------------------------------
  // The handler

  predicate CarriesBody(verb: string) {
    verb != "GET" && verb != "HEAD"
  }

  function JsonHeaders(cors: HeaderObject): HeaderObject {
    cors["Content-Type" := "application/json"]
  }

  /** The handler: what is forwarded, if anything, and what is answered. */
  function Serve(req: Request, cors: HeaderObject, upstream: Upstream): (r: (Option<Forwarded>, Response))
    ensures req.verb == "OPTIONS" ==> r == (None, Response(200, "", cors, Text("ok")))
    ensures req.verb != "OPTIONS" && (req.target.None? || req.target.value == "") ==>
      && r.0.None?
      && r.1 == Response(400, "", JsonHeaders(cors), JsonError(MissingTargetMessage))
    ensures r.0.Some? <==> req.verb != "OPTIONS" && req.target.Some? && req.target.value != ""
    ensures r.0.Some? ==>
      && r.0.value.verb == req.verb
      && r.0.value.url == req.target.value
      && r.0.value.headers == ForwardHeaders(req.headers)
      && (r.0.value.body.Some? <==> CarriesBody(req.verb))
      && (r.0.value.body.Some? ==> r.0.value.body.value == req.body)
    ensures r.0.Some? && upstream.Threw? ==>
      r.1 == Response(500, "", JsonHeaders(cors), JsonError(upstream.message))
    ensures r.0.Some? && upstream.Answered? ==>
      && r.1.status == upstream.status && r.1.statusText == upstream.statusText
      && r.1.body == Passed(upstream.body)
      && r.1.headers == ResponseHeaders(cors, upstream.headers)
  {
    if req.verb == "OPTIONS" then
      (None, Response(200, "", cors, Text("ok")))
    else if req.target.None? || req.target.value == "" then
      (None, Response(400, "", JsonHeaders(cors), JsonError(MissingTargetMessage)))
    else
      var forwarded := Forwarded(
        req.verb,
        req.target.value,
        ForwardHeaders(req.headers),
        if CarriesBody(req.verb) then Some(req.body) else None);
      match upstream
      case Threw(message) =>
        (Some(forwarded), Response(500, "", JsonHeaders(cors), JsonError(message)))
      case Answered(status, statusText, headers, body) =>
        (Some(forwarded), Response(status, statusText, ResponseHeaders(cors, headers), Passed(body)))
  }

  /** No answer of the proxy carries a denied upstream header it did not
      already have among the CORS headers, and none forwards a denied
      request header. */
  lemma NothingDeniedPasses(req: Request, cors: HeaderObject, upstream: Upstream)
    requires forall k :: k in cors ==> Lower(k) !in ResponseDeny
    ensures var r := Serve(req, cors, upstream);
      && (forall k :: k in r.1.headers ==> Lower(k) !in ResponseDeny || k == "Content-Type")
      && (r.0.Some? ==> forall k :: k in r.0.value.headers ==> Lower(k) !in RequestDeny)
  {
    var r := Serve(req, cors, upstream);
    if r.0.Some? && upstream.Answered? {
      forall k | k in r.1.headers
        ensures Lower(k) !in ResponseDeny
      {
        if k !in cors {
          var i :| 0 <= i < |upstream.headers| && upstream.headers[i].0 == k && Lower(k) !in ResponseDeny;
        }
      }
    }
  }
}

=== FILE: dashboard.dfy ===
/** The dashboard's project list: which query `fetchProjects` issues for the
    signed-in profile, what it shows for each answer, and who may edit a
    listed project. The database is an oracle; a reference query (filter,
    then newest first) states what a faithful database answers. */
module Dashboard {
  import opened Common
  import opened Records
  import Auth

  /** The visibility condition the query carries. */
  datatype Filter =
    | PublicOnly
    | PublicOrCreatedBy(creator: string)
    | NoFilter

  /** Whether `fetchProjects` queries at all, and with which condition. */
  datatype FetchPlan = Skip | Query(filter: Filter)

  function State(profile: Option<UserProfile>): Auth.AuthState {
    Auth.AuthState(None, profile, false, true)
  }

  predicate IsAdmin(profile: Option<UserProfile>) {
    Auth.IsAdmin(State(profile))
  }

  predicate IsGuest(profile: Option<UserProfile>) {
    Auth.IsGuest(State(profile))
  }

  /** Whether the profile has an id the code treats as present: the empty
      string is falsy. */
  predicate HasId(profile: Option<UserProfile>) {
    profile.Some? && profile.value.id != ""
  }

  /** The branch structure of `fetchProjects`: no profile means no query; a
      guest gets public projects; a non-admin with an id also gets their own;
      a non-guest without an id gets public projects; an admin with an id
      falls through every branch and gets no condition. */
  function Plan(profile: Option<UserProfile>): (r: FetchPlan)
    ensures r.Skip? <==> profile.None?
    ensures IsGuest(profile) ==> r == Query(PublicOnly)
    ensures !IsGuest(profile) && !IsAdmin(profile) && HasId(profile) ==> r == Query(PublicOrCreatedBy(profile.value.id))
    ensures profile.Some? && !IsGuest(profile) && !HasId(profile) ==> r == Query(PublicOnly)
    ensures IsAdmin(profile) && HasId(profile) <==> r == Query(NoFilter)
  {
    if profile.None? && !IsGuest(profile) then Skip
    else if IsGuest(profile) then Query(PublicOnly)
    else if !IsAdmin(profile) && HasId(profile) then Query(PublicOrCreatedBy(profile.value.id))
    else if !HasId(profile) then Query(PublicOnly)
    else Query(NoFilter)
  }

  predicate Matches(f: Filter, p: BIMProject) {
    match f
    case PublicOnly => p.isPublic
    case PublicOrCreatedBy(id) => p.isPublic || p.createdBy == id
    case NoFilter => true
  }

  /** Who may see a project, stated from the roles: everyone sees public
      projects; a signed-in user with an id also sees their own; an admin
      with an id sees everything. */
  predicate MaySee(profile: Option<UserProfile>, p: BIMProject) {
    || p.isPublic
    || (!IsGuest(profile) && HasId(profile) && (IsAdmin(profile) || p.createdBy == profile.value.id))
  }

  /** The condition the dashboard queries with is exactly the visibility rule. */
  lemma PlanIsVisibility(profile: Option<UserProfile>, p: BIMProject)
    requires profile.Some?
    ensures Plan(profile).Query? && (Matches(Plan(profile).filter, p) <==> MaySee(profile, p))
  {
  }

  // ---------------------------------------------------------------------
  // The reference query

  predicate NewestFirst(s: seq<BIMProject>) {
    forall i, j :: 0 <= i < j < |s| ==> s[i].createdAt >= s[j].createdAt
  }

  function Select(table: seq<BIMProject>, f: Filter): (r: seq<BIMProject>)
    ensures forall p :: p in r <==> p in table && Matches(f, p)
    ensures multiset(r) <= multiset(table)
    ensures forall p :: multiset(r)[p] == if Matches(f, p) then multiset(table)[p] else 0
  {
    if table == [] then []
    else
      var rest := Select(table[1..], f);
      assert table == [table[0]] + table[1..];
      if Matches(f, table[0]) then [table[0]] + rest else rest
  }

  function Insert(p: BIMProject, s: seq<BIMProject>): (r: seq<BIMProject>)
    requires NewestFirst(s)
    ensures NewestFirst(r)
    ensures multiset(r) == multiset(s) + multiset{p}
    ensures forall x :: x in r ==> x == p || x in s
  {
    if s == [] || p.createdAt >= s[0].createdAt then [p] + s
    else
      var rest := Insert(p, s[1..]);
      assert s == [s[0]] + s[1..];
      TailBelowHead(s, p, rest);
      PrependKeepsOrder(s[0], rest);
      [s[0]] + rest
  }

  /** Everything in a sorted list's tail, and anything older than its head,
      is no newer than the head. */
  lemma TailBelowHead(s: seq<BIMProject>, p: BIMProject, rest: seq<BIMProject>)
    requires NewestFirst(s) && s != [] && p.createdAt < s[0].createdAt
    requires forall x :: x in rest ==> x == p || x in s[1..]
    ensures forall i :: 0 <= i < |rest| ==> rest[i].createdAt <= s[0].createdAt
  {
    forall i | 0 <= i < |rest| ensures rest[i].createdAt <= s[0].createdAt {
      if rest[i] != p {
        assert rest[i] in s[1..];
        var k :| 0 <= k < |s[1..]| && s[1..][k] == rest[i];
        assert s[k + 1] == rest[i];
      }
    }
  }

  /** A row no older than every row of a sorted list can go in front of it. */
  lemma PrependKeepsOrder(q: BIMProject, rest: seq<BIMProject>)
    requires NewestFirst(rest)
    requires forall i :: 0 <= i < |rest| ==> rest[i].createdAt <= q.createdAt
    ensures NewestFirst([q] + rest)
  {
    var r := [q] + rest;
    forall i, j | 0 <= i < j < |r| ensures r[i].createdAt >= r[j].createdAt {
      assert r[j] == rest[j - 1];
      if i > 0 {
        assert r[i] == rest[i - 1];
      }
    }
  }

  function SortNewestFirst(s: seq<BIMProject>): (r: seq<BIMProject>)
    ensures NewestFirst(r)
    ensures multiset(r) == multiset(s)
  {
    if s == [] then []
    else
      assert s == [s[0]] + s[1..];
      Insert(s[0], SortNewestFirst(s[1..]))
  }

  /** What `select('*')`, the condition and `order('created_at', desc)` ask
      of a faithful database. */
  function ReferenceQuery(table: seq<BIMProject>, f: Filter): (r: seq<BIMProject>)
    ensures NewestFirst(r)
    ensures forall p :: p in r <==> p in table && Matches(f, p)
    ensures multiset(r) <= multiset(table)
    ensures forall p :: multiset(r)[p] == if Matches(f, p) then multiset(table)[p] else 0
  {
    var selected := Select(table, f);
    var r := SortNewestFirst(selected);
    assert forall p :: p in r <==> p in multiset(r);
    assert forall p :: p in selected <==> p in multiset(selected);
    r
  }

  // ---------------------------------------------------------------------
  // fetchProjects

  /** The database's answer: rows (possibly none), an error, or an exception. */
  datatype QueryOutcome = Rows(data: Option<seq<BIMProject>>) | QueryError | QueryThrew

  datatype ListState = ListState(projects: seq<BIMProject>, loading: bool)

  /** `fetchProjects`: without a profile the list is left alone; an error or
      exception empties it; rows are shown as they come. Loading always ends. */
  function FetchProjects(s: ListState, profile: Option<UserProfile>, answer: QueryOutcome): (r: ListState)
    ensures !r.loading
    ensures profile.None? ==> r.projects == s.projects
    ensures profile.Some? && !answer.Rows? ==> r.projects == []
    ensures profile.Some? && answer.Rows? ==>
      r.projects == if answer.data.Some? then answer.data.value else []
  {
    if profile.None? && !IsGuest(profile) then s.(loading := false)
    else match answer
      case QueryError => ListState([], false)
      case QueryThrew => ListState([], false)
      case Rows(data) =>
        if data.None? || |data.value| == 0 then ListState([], false)
        else ListState(data.value, false)
  }

  /** When the database answers the issued query faithfully, the dashboard
      lists exactly the projects the profile may see, newest first, each
      as often as it occurs in the table. */
  lemma ListsExactlyTheVisible(s: ListState, table: seq<BIMProject>, profile: Option<UserProfile>, p: BIMProject)
    requires profile.Some?
    ensures var shown := FetchProjects(s, profile, Rows(Some(ReferenceQuery(table, Plan(profile).filter)))).projects;
      && NewestFirst(shown)
      && (p in shown <==> p in table && MaySee(profile, p))
      && multiset(shown) <= multiset(table)
      && multiset(shown)[p] == if MaySee(profile, p) then multiset(table)[p] else 0
  {
    PlanIsVisibility(profile, p);
  }


  /** `canEdit` on a project card: never for a guest; for anyone else, when
      they are an admin or created the project. */
  function CanEdit(profile: Option<UserProfile>, p: BIMProject): (r: bool)
    ensures IsGuest(profile) ==> !r
    ensures profile.None? ==> !r
    ensures r <==> !IsGuest(profile) && profile.Some? && (IsAdmin(profile) || p.createdBy == profile.value.id)
  {
    !IsGuest(profile) && (IsAdmin(profile) || (profile.Some? && p.createdBy == profile.value.id))
  }

  /** A user with an id who may edit a project is also shown it. */
  lemma EditableIsVisible(profile: Option<UserProfile>, p: BIMProject)
    requires HasId(profile) && CanEdit(profile, p)
    ensures MaySee(profile, p)
    ensures Matches(Plan(profile).filter, p)
  {
    PlanIsVisibility(profile, p);
  }
}

=== FILE: records.dfy ===
/** The application's records: user roles and profiles, projects, component
    metadata, and the dynamically typed values found in a component's
    property bag. */
module Records {
  import opened Common

  datatype Role = Admin | User | Guest

  function RoleName(r: Role): string {
    match r
    case Admin => "admin"
    case User => "user"
    case Guest => "guest"
  }

  datatype UserProfile = UserProfile(
    id: string,
    email: Option<string>,
    role: Role,
    fullName: Option<string>,
    avatarUrl: Option<string>,
    createdAt: string,
    updatedAt: string)

  /** A project row. `createdAt` is the creation instant, which the database
      orders by. */
  datatype BIMProject = BIMProject(
    id: string,
    name: string,
    description: Option<string>,
    ifcFileUrl: Option<string>,
    thumbnailUrl: Option<string>,
    createdBy: string,
    createdAt: int,
    updatedAt: string,
    isPublic: bool)

  /** A JavaScript value as it may appear in a property bag. Numbers are
      integers here. */
  datatype JsValue =
    | JsNull
    | JsUndefined
    | JsBool(b: bool)
    | JsNumber(n: int)
    | JsString(s: string)
    | JsArray(items: seq<JsValue>)
    | JsObject(fields: seq<(string, JsValue)>)

  /** Metadata of one model component. `kind` is the record's `type`;
      `status` is whatever string the database holds. */
  datatype ComponentInfo = ComponentInfo(
    id: string,
    projectId: string,
    componentId: string,
    name: string,
    kind: string,
    properties: seq<(string, JsValue)>,
    maintenanceNotes: Option<string>,
    lastInspection: Option<string>,
    nextInspection: Option<string>,
    status: string,
    createdAt: string,
    updatedAt: string)
}

=== FILE: scene_setup.dfy ===
/** Deterministic scene construction: `ThreeHelper.createBasicScene`,
    `ThreeHelper.createCamera`, and the scene and camera that the simple BIM
    viewer builds inline when it initializes. */
module SceneSetup {
  import opened Common
  import opened SceneTree

  /** A perspective camera: field of view in degrees, aspect ratio, clipping
      planes and position. */
  datatype Camera = Camera(fov: real, aspect: real, near: real, far: real, position: Vec3)

  const Background: int := 0xf0f0f0
  /** three.js's default shadow map edge for a directional light. */
  const DefaultShadowMapSize: nat := 512

  function Ambient(): Node {
    Object(AmbientLight(0x404040, 0.6), [])
  }

  function Sun(shadowMapSize: nat): Node {
    Object(DirectionalLight(0xffffff, 0.8, Vec3(50.0, 50.0, 50.0), true, shadowMapSize), [])
  }

  function Grid(): Node {
    Object(GridHelper(100, 100), [])
  }

  /** `createBasicScene()`: a light-grey scene holding, in this order, an
      ambient light, a shadow-casting directional light at (50, 50, 50) with a
      2048-texel shadow map, and a 100 x 100 grid. It holds no mesh. */
  function CreateBasicScene(): (r: Node)
    ensures r.Object? && r.kind == SceneRoot(Background)
    ensures |r.children| == 3
    ensures forall i :: 0 <= i < 3 ==> r.children[i].Object? && r.children[i].children == []
    ensures r.children[0].kind.AmbientLight?
    ensures r.children[1].kind.DirectionalLight? && r.children[1].kind.castShadow
    ensures r.children[1].kind.position == Vec3(50.0, 50.0, 50.0)
    ensures r.children[1].kind.shadowMapSize == 2048
    ensures r.children[2].kind == GridHelper(100, 100)
    ensures MeshCount(r) == 0
  {
    var cs := [Ambient(), Sun(2048), Grid()];
    assert MeshCountSeq(cs[2..]) == 0 by { assert cs[2..][1..] == []; }
    assert MeshCountSeq(cs[1..]) == 0 by { assert cs[1..][1..] == cs[2..]; }
    Object(SceneRoot(Background), cs)
  }

  /** `createCamera(aspect)`: fov 75, near 0.1, far 1000, placed at
      (10, 10, 10), elevated and equidistant from the origin on all axes. */
  function CreateCamera(aspect: real): (r: Camera)
    ensures r.aspect == aspect
    ensures r.fov == 75.0 && r.near == 0.1 && r.far == 1000.0
    ensures 0.0 < r.near < r.far
    ensures r.position.x == r.position.y == r.position.z == 10.0
  {
    Camera(75.0, aspect, 0.1, 1000.0, Vec3(10.0, 10.0, 10.0))
  }

  /** The placeholder box the viewer shows in place of the model: a blue
      Lambert material on a 5 x 5 x 5 box. */
  function Placeholder(): Node {
    Mesh(Geometry(0, false), Single(Material(0, 0x4a90e2, false, 1.0, Some(false), false)), None, [])
  }

  /** The scene `initializeViewer` builds: the same rig as `createBasicScene`
      except that the directional light keeps the default shadow map size,
      followed by the placeholder mesh. */
  function ViewerScene(): (r: Node)
    ensures r.Object? && r.kind == CreateBasicScene().kind
    ensures |r.children| == 4
    ensures r.children[0] == CreateBasicScene().children[0]
    ensures r.children[1].Object? && r.children[1].children == []
    ensures r.children[1].kind == CreateBasicScene().children[1].kind.(shadowMapSize := DefaultShadowMapSize)
    ensures r.children[2] == CreateBasicScene().children[2]
    ensures MeshCount(r) == 1 && r.children[3].Mesh?
    ensures Clean(r)
  {
    var cs := [Ambient(), Sun(DefaultShadowMapSize), Grid(), Placeholder()];
    assert cs[3..][1..] == [];
    assert cs[2..][1..] == cs[3..];
    assert cs[1..][1..] == cs[2..];
    assert MeshCountSeq(cs[3..]) == 1;
    assert MeshCountSeq(cs[2..]) == 1;
    assert MeshCountSeq(cs[1..]) == 1;
    assert CleanSeq(cs[3..]);
    assert CleanSeq(cs[2..]);
    assert CleanSeq(cs[1..]);
    assert CleanSeq(cs);
    Object(SceneRoot(Background), cs)
  }

  /** The scene `initializeViewer` has stored when creating the renderer
      fails: the background is set and nothing has been added yet. */
  function BareViewerScene(): (r: Node)
    ensures r.Object? && r.children == [] && MeshCount(r) == 0
    ensures ViewerScene() == r.(children := ViewerScene().children)
  {
    Object(SceneRoot(Background), [])
  }

  /** The camera `initializeViewer` creates inline is the one `createCamera` makes. */
  function ViewerCamera(aspect: real): (r: Camera)
    ensures r == CreateCamera(aspect)
  {
    Camera(75.0, aspect, 0.1, 1000.0, Vec3(10.0, 10.0, 10.0))
  }

  /** None of the tree helpers changes the basic scene: it has no mesh. */
  lemma BasicSceneUntouchedByHelpers(color: int, next: nat, mode: bool)
    ensures Highlight(CreateBasicScene(), color, next).0 == CreateBasicScene()
    ensures RemoveHighlight(CreateBasicScene()) == CreateBasicScene()
    ensures Dispose(CreateBasicScene()) == CreateBasicScene()
    ensures SetWireframe(CreateBasicScene(), mode) == CreateBasicScene()
  {
    MeshFreeTreesUntouched(CreateBasicScene(), color, next, mode);
  }
}

=== FILE: scene_tree.dfy ===
/** The three.js object tree as the helpers in `threeHelpers.ts` and the
    wireframe toggle see it: meshes carry a geometry, a material slot (one
    material or an array of them) and the `userData.originalMaterial` slot that
    highlighting uses; every other object (scene, lights, grid, groups) is a
    plain node. `traverse` visits a node and then its children, so every
    operation here is a structural recursion over the tree. */
module SceneTree {
  import opened Common

  datatype Vec3 = Vec3(x: real, y: real, z: real)

  /** A material. `wireframe` is `None` for a material that has no
      `wireframe` property; `id` stands for the object identity, so two
      allocations are told apart. */
  datatype Material = Material(
    id: nat,
    color: int,
    transparent: bool,
    opacity: real,
    wireframe: Option<bool>,
    disposed: bool)

  /** `mesh.material`: a single material or an array of materials. */
  datatype Slot = Single(m: Material) | Multi(ms: seq<Material>)

  datatype Geometry = Geometry(id: nat, disposed: bool)

  datatype ObjectKind =
    | SceneRoot(background: int)
    | AmbientLight(color: int, intensity: real)
    | DirectionalLight(color: int, intensity: real, position: Vec3, castShadow: bool, shadowMapSize: nat)
    | GridHelper(size: nat, divisions: nat)
    | Group
    | OtherObject

  /** `saved` is `userData.originalMaterial`. */
  datatype Node =
    | Mesh(geometry: Geometry, material: Slot, saved: Option<Slot>, children: seq<Node>)
    | Object(kind: ObjectKind, children: seq<Node>)

  /** Default highlight colour of `highlightObject`. */
  const DefaultHighlightColor: int := 0xff6b6b

  /** The translucent `MeshBasicMaterial` that highlighting allocates. */
  function HighlightMaterial(color: int, id: nat): Material {
    Material(id, color, true, 0.8, Some(false), false)
  }

  predicate IsHighlightMaterial(m: Material, color: int) {
    m.color == color && m.transparent && m.opacity == 0.8 && !m.disposed
  }

  // ---------------------------------------------------------------------
  // Observations over a tree

  function MeshCount(n: Node): nat {
    (if n.Mesh? then 1 else 0) + MeshCountSeq(n.children)
  }

  function MeshCountSeq(ns: seq<Node>): nat {
    if ns == [] then 0 else MeshCount(ns[0]) + MeshCountSeq(ns[1..])
  }

  /** No mesh holds a saved original material. */
  predicate Clean(n: Node) {
    (n.Mesh? ==> n.saved.None?) && CleanSeq(n.children)
  }

  predicate CleanSeq(ns: seq<Node>) {
    ns == [] || (Clean(ns[0]) && CleanSeq(ns[1..]))
  }

  /** Every mesh shows a highlight material of `color` and remembers an original. */
  predicate Highlighted(n: Node, color: int) {
    (n.Mesh? ==> n.material.Single? && IsHighlightMaterial(n.material.m, color) && n.saved.Some?)
    && HighlightedSeq(n.children, color)
  }

  predicate HighlightedSeq(ns: seq<Node>, color: int) {
    ns == [] || (Highlighted(ns[0], color) && HighlightedSeq(ns[1..], color))
  }

  /** `a` and `b` have the same shape, meshes sit at the same places with the
      same geometry object, and every non-mesh node of `a` is identical to the
      corresponding node of `b`. */
  predicate SameStructure(a: Node, b: Node) {
    (if a.Mesh? then b.Mesh? && a.geometry.id == b.geometry.id else b.Object? && a.kind == b.kind)
    && SameStructureSeq(a.children, b.children)
  }

  predicate SameStructureSeq(xs: seq<Node>, ys: seq<Node>) {
    |xs| == |ys| && (xs == [] || (SameStructure(xs[0], ys[0]) && SameStructureSeq(xs[1..], ys[1..])))
  }

  /** Like `SameStructure`, and every mesh keeps its geometry as well: the
      two trees differ at most in the materials their meshes hold or save. */
  predicate OnlyMaterialsDiffer(a: Node, b: Node) {
    (if a.Mesh? then b.Mesh? && a.geometry == b.geometry else b.Object? && a.kind == b.kind)
    && OnlyMaterialsDifferSeq(a.children, b.children)
  }

  predicate OnlyMaterialsDifferSeq(xs: seq<Node>, ys: seq<Node>) {
    |xs| == |ys| && (xs == [] || (OnlyMaterialsDiffer(xs[0], ys[0]) && OnlyMaterialsDifferSeq(xs[1..], ys[1..])))
  }

  function SlotMaterials(s: Slot): seq<Material> {
    match s
    case Single(m) => [m]
    case Multi(ms) => ms
  }

  /** The materials the meshes show, in traversal order (a mesh before its
      children), single and array slots alike. */
  function Materials(n: Node): seq<Material> {
    (if n.Mesh? then SlotMaterials(n.material) else []) + MaterialsSeq(n.children)
  }

  function MaterialsSeq(ns: seq<Node>): seq<Material> {
    if ns == [] then [] else Materials(ns[0]) + MaterialsSeq(ns[1..])
  }

  /** The saved originals (`userData.originalMaterial`) of the meshes, one
      entry per mesh, in traversal order. */
  function SavedSlots(n: Node): seq<Option<Slot>> {
    (if n.Mesh? then [n.saved] else []) + SavedSlotsSeq(n.children)
  }

  function SavedSlotsSeq(ns: seq<Node>): seq<Option<Slot>> {
    if ns == [] then [] else SavedSlots(ns[0]) + SavedSlotsSeq(ns[1..])
  }

  predicate SlotDisposed(s: Slot) {
    match s
    case Single(m) => m.disposed
    case Multi(ms) => forall i :: 0 <= i < |ms| ==> ms[i].disposed
  }

  /** Every mesh's geometry and every material in its slot are disposed. */
  predicate FullyDisposed(n: Node) {
    (n.Mesh? ==> n.geometry.disposed && SlotDisposed(n.material)) && FullyDisposedSeq(n.children)
  }

  predicate FullyDisposedSeq(ns: seq<Node>) {
    ns == [] || (FullyDisposed(ns[0]) && FullyDisposedSeq(ns[1..]))
  }

  predicate SlotWireframe(s: Slot, mode: bool) {
    match s
    case Single(m) => m.wireframe.Some? ==> m.wireframe.value == mode
    case Multi(ms) => forall i :: 0 <= i < |ms| && ms[i].wireframe.Some? ==> ms[i].wireframe.value == mode
  }

  /** Every material that has a `wireframe` property, on every mesh, has it set to `mode`. */
  predicate WireframeIs(n: Node, mode: bool) {
    (n.Mesh? ==> SlotWireframe(n.material, mode)) && WireframeIsSeq(n.children, mode)
  }

  predicate WireframeIsSeq(ns: seq<Node>, mode: bool) {
    ns == [] || (WireframeIs(ns[0], mode) && WireframeIsSeq(ns[1..], mode))
  }

  // ---------------------------------------------------------------------
  // highlightObject

  /** `highlightObject(n, color)`: every mesh first saves its current material
      unless one is already saved, then gets a newly allocated highlight
      material. Allocation is modelled by a counter: the meshes receive the
      ids `next`, `next + 1`, ... in traversal order, and the second component
      of the result is the next unused id. */
  function Highlight(n: Node, color: int, next: nat): (r: (Node, nat))
    ensures r.1 == next + MeshCount(n)
    ensures Highlighted(r.0, color)
    ensures MeshCount(r.0) == MeshCount(n)
    ensures |Materials(r.0)| == MeshCount(n)
    ensures forall i :: 0 <= i < |Materials(r.0)| ==> Materials(r.0)[i].id == next + i
  {
    match n
    case Mesh(g, m, saved, cs) =>
      var (cs', next') := HighlightSeq(cs, color, next + 1);
      (Mesh(g, Single(HighlightMaterial(color, next)), if saved.Some? then saved else Some(m), cs'), next')
    case Object(k, cs) =>
      var (cs', next') := HighlightSeq(cs, color, next);
      (Object(k, cs'), next')
  }

  function HighlightSeq(ns: seq<Node>, color: int, next: nat): (r: (seq<Node>, nat))
    ensures r.1 == next + MeshCountSeq(ns)
    ensures HighlightedSeq(r.0, color)
    ensures MeshCountSeq(r.0) == MeshCountSeq(ns)
    ensures |r.0| == |ns|
    ensures |MaterialsSeq(r.0)| == MeshCountSeq(ns)
    ensures forall i :: 0 <= i < |MaterialsSeq(r.0)| ==> MaterialsSeq(r.0)[i].id == next + i
  {
    if ns == [] then ([], next)
    else
      var (h, next1) := Highlight(ns[0], color, next);
      var (t, next2) := HighlightSeq(ns[1..], color, next1);
      assert ([h] + t)[1..] == t;
      ([h] + t, next2)
  }

  // ---------------------------------------------------------------------
  // removeHighlight

  /** `removeHighlight(n)`: every mesh with a saved original gets it back and
      forgets it; meshes without one are left alone. */
  function RemoveHighlight(n: Node): (r: Node)
    ensures Clean(r)
  {
    match n
    case Mesh(g, m, saved, cs) =>
      Mesh(g, if saved.Some? then saved.value else m, None, RemoveHighlightSeq(cs))
    case Object(k, cs) => Object(k, RemoveHighlightSeq(cs))
  }

  function RemoveHighlightSeq(ns: seq<Node>): (r: seq<Node>)
    ensures CleanSeq(r)
    ensures |r| == |ns|
  {
    if ns == [] then [] else
      var t := RemoveHighlightSeq(ns[1..]);
      assert ([RemoveHighlight(ns[0])] + t)[1..] == t;
      [RemoveHighlight(ns[0])] + t
  }

  // ---------------------------------------------------------------------
  // disposeObject

  function DisposeMaterial(m: Material): Material {
    m.(disposed := true)
  }

  function DisposeSlot(s: Slot): (r: Slot)
    ensures SlotDisposed(r)
    ensures r.Single? <==> s.Single?
    ensures |SlotMaterials(r)| == |SlotMaterials(s)|
    ensures forall i :: 0 <= i < |SlotMaterials(s)| ==> SlotMaterials(r)[i] == SlotMaterials(s)[i].(disposed := true)
  {
    match s
    case Single(m) => Single(DisposeMaterial(m))
    case Multi(ms) => Multi(seq(|ms|, i requires 0 <= i < |ms| => DisposeMaterial(ms[i])))
  }

  /** `disposeObject(n)`: the geometry of every mesh and every material in its
      slot, single or array, are disposed. The saved original material is not
      part of the slot and is not touched. */
  function Dispose(n: Node): (r: Node)
    ensures SavedSlots(r) == SavedSlots(n)
    ensures |Materials(r)| == |Materials(n)|
    ensures forall i :: 0 <= i < |Materials(n)| ==> Materials(r)[i] == Materials(n)[i].(disposed := true)
  {
    match n
    case Mesh(g, m, saved, cs) => Mesh(g.(disposed := true), DisposeSlot(m), saved, DisposeSeq(cs))
    case Object(k, cs) => Object(k, DisposeSeq(cs))
  }

  function DisposeSeq(ns: seq<Node>): (r: seq<Node>)
    ensures |r| == |ns|
    ensures SavedSlotsSeq(r) == SavedSlotsSeq(ns)
    ensures |MaterialsSeq(r)| == |MaterialsSeq(ns)|
    ensures forall i :: 0 <= i < |MaterialsSeq(ns)| ==> MaterialsSeq(r)[i] == MaterialsSeq(ns)[i].(disposed := true)
  {
    if ns == [] then [] else
      var r := [Dispose(ns[0])] + DisposeSeq(ns[1..]);
      assert r[0] == Dispose(ns[0]) && r[1..] == DisposeSeq(ns[1..]);
      r
  }

  // ---------------------------------------------------------------------
  // the wireframe flag (traversal of ViewerControls.toggleWireframe)

  function WireMaterial(m: Material, mode: bool): Material {
    if m.wireframe.Some? then m.(wireframe := Some(mode)) else m
  }

  function WireSlot(s: Slot, mode: bool): (r: Slot)
    ensures SlotWireframe(r, mode)
    ensures r.Single? <==> s.Single?
    ensures |SlotMaterials(r)| == |SlotMaterials(s)|
    ensures forall i :: 0 <= i < |SlotMaterials(s)| && SlotMaterials(s)[i].wireframe.None? ==>
      SlotMaterials(r)[i] == SlotMaterials(s)[i]
    ensures forall i :: 0 <= i < |SlotMaterials(s)| && SlotMaterials(s)[i].wireframe.Some? ==>
      SlotMaterials(r)[i] == SlotMaterials(s)[i].(wireframe := Some(mode))
  {
    match s
    case Single(m) => Single(WireMaterial(m, mode))
    case Multi(ms) => Multi(seq(|ms|, i requires 0 <= i < |ms| => WireMaterial(ms[i], mode)))
  }

  /** Sets `wireframe = mode` on every material of every mesh that has the
      property, in single and array slots alike: a material without the
      property is untouched, and the others change in `wireframe` only. */
  function SetWireframe(n: Node, mode: bool): (r: Node)
    ensures |Materials(r)| == |Materials(n)|
    ensures forall i :: 0 <= i < |Materials(n)| && Materials(n)[i].wireframe.None? ==>
      Materials(r)[i] == Materials(n)[i]
    ensures forall i :: 0 <= i < |Materials(n)| && Materials(n)[i].wireframe.Some? ==>
      Materials(r)[i] == Materials(n)[i].(wireframe := Some(mode))
  {
    match n
    case Mesh(g, m, saved, cs) => Mesh(g, WireSlot(m, mode), saved, SetWireframeSeq(cs, mode))
    case Object(k, cs) => Object(k, SetWireframeSeq(cs, mode))
  }

  function SetWireframeSeq(ns: seq<Node>, mode: bool): (r: seq<Node>)
    ensures |r| == |ns|
    ensures |MaterialsSeq(r)| == |MaterialsSeq(ns)|
    ensures forall i :: 0 <= i < |MaterialsSeq(ns)| && MaterialsSeq(ns)[i].wireframe.None? ==>
      MaterialsSeq(r)[i] == MaterialsSeq(ns)[i]
    ensures forall i :: 0 <= i < |MaterialsSeq(ns)| && MaterialsSeq(ns)[i].wireframe.Some? ==>
      MaterialsSeq(r)[i] == MaterialsSeq(ns)[i].(wireframe := Some(mode))
  {
    if ns == [] then [] else
      var r := [SetWireframe(ns[0], mode)] + SetWireframeSeq(ns[1..], mode);
      assert r[0] == SetWireframe(ns[0], mode) && r[1..] == SetWireframeSeq(ns[1..], mode);
      r
  }

  // ---------------------------------------------------------------------
  // Properties

  /** Highlighting never changes what removing the highlight yields: the
      original saved by the FIRST highlight is the one restored. */
  lemma {:induction false} RemoveAfterHighlight(n: Node, color: int, next: nat)
    ensures RemoveHighlight(Highlight(n, color, next).0) == RemoveHighlight(n)
  {
    match n
    case Mesh(g, m, saved, cs) => RemoveAfterHighlightSeq(cs, color, next + 1);
    case Object(k, cs) => RemoveAfterHighlightSeq(cs, color, next);
  }

  lemma {:induction false} RemoveAfterHighlightSeq(ns: seq<Node>, color: int, next: nat)
    ensures RemoveHighlightSeq(HighlightSeq(ns, color, next).0) == RemoveHighlightSeq(ns)
  {
    if ns != [] {
      var (h, next1) := Highlight(ns[0], color, next);
      var (t, next2) := HighlightSeq(ns[1..], color, next1);
      RemoveAfterHighlight(ns[0], color, next);
      RemoveAfterHighlightSeq(ns[1..], color, next1);
      assert HighlightSeq(ns, color, next).0 == [h] + t;
      assert ([h] + t)[1..] == t;
    }
  }

  /** On a tree without saved originals, removing the highlight changes nothing. */
  lemma {:induction false} RemoveOnCleanIsIdentity(n: Node)
    requires Clean(n)
    ensures RemoveHighlight(n) == n
  {
    RemoveOnCleanIsIdentitySeq(n.children);
  }

  lemma {:induction false} RemoveOnCleanIsIdentitySeq(ns: seq<Node>)
    requires CleanSeq(ns)
    ensures RemoveHighlightSeq(ns) == ns
  {
    if ns != [] {
      RemoveOnCleanIsIdentity(ns[0]);
      RemoveOnCleanIsIdentitySeq(ns[1..]);
    }
  }

  /** A second `removeHighlight` is a no-op. */
  lemma RemoveHighlightIdempotent(n: Node)
    ensures RemoveHighlight(RemoveHighlight(n)) == RemoveHighlight(n)
  {
    RemoveOnCleanIsIdentity(RemoveHighlight(n));
  }

  /** `times` successive `highlightObject` calls, with the allocation counter
      threaded through. */
  function HighlightTimes(n: Node, color: int, next: nat, times: nat): (r: (Node, nat))
    ensures r.1 == next + times * MeshCount(n)
    decreases times
  {
    if times == 0 then (n, next)
    else
      var (h, next') := Highlight(n, color, next);
      var r := HighlightTimes(h, color, next', times - 1);
      assert r.1 == next + MeshCount(n) + (times - 1) * MeshCount(n);
      r
  }

  /** Round trip: any number of highlights followed by one `removeHighlight`
      restores every mesh's pre-highlight material, when nothing was saved before. */
  lemma {:induction false} HighlightThenRemoveRestores(n: Node, color: int, next: nat, times: nat)
    requires Clean(n)
    ensures RemoveHighlight(HighlightTimes(n, color, next, times).0) == n
  {
    if times == 0 {
      RemoveOnCleanIsIdentity(n);
    } else {
      var (h, next') := Highlight(n, color, next);
      HighlightTimesRemove(h, color, next', times - 1);
      RemoveAfterHighlight(n, color, next);
      RemoveOnCleanIsIdentity(n);
    }
  }

  lemma {:induction false} HighlightTimesRemove(n: Node, color: int, next: nat, times: nat)
    ensures RemoveHighlight(HighlightTimes(n, color, next, times).0) == RemoveHighlight(n)
    decreases times
  {
    if times > 0 {
      var (h, next') := Highlight(n, color, next);
      HighlightTimesRemove(h, color, next', times - 1);
      RemoveAfterHighlight(n, color, next);
    }
  }

  /** Highlighting changes mesh materials only: shape, geometries and every
      other node stay as they were. */
  lemma {:induction false} HighlightTouchesOnlyMeshes(n: Node, color: int, next: nat)
    ensures OnlyMaterialsDiffer(n, Highlight(n, color, next).0)
  {
    match n
    case Mesh(g, m, saved, cs) => HighlightTouchesOnlyMeshesSeq(cs, color, next + 1);
    case Object(k, cs) => HighlightTouchesOnlyMeshesSeq(cs, color, next);
  }

  lemma {:induction false} HighlightTouchesOnlyMeshesSeq(ns: seq<Node>, color: int, next: nat)
    ensures OnlyMaterialsDifferSeq(ns, HighlightSeq(ns, color, next).0)
  {
    if ns != [] {
      var (h, next1) := Highlight(ns[0], color, next);
      var (t, next2) := HighlightSeq(ns[1..], color, next1);
      HighlightTouchesOnlyMeshes(ns[0], color, next);
      HighlightTouchesOnlyMeshesSeq(ns[1..], color, next1);
      assert HighlightSeq(ns, color, next).0 == [h] + t;
      assert ([h] + t)[1..] == t;
    }
  }

  /** Removing a highlight changes mesh materials only. */
  lemma {:induction false} RemoveTouchesOnlyMeshes(n: Node)
    ensures OnlyMaterialsDiffer(n, RemoveHighlight(n))
  {
    RemoveTouchesOnlyMeshesSeq(n.children);
  }

  lemma {:induction false} RemoveTouchesOnlyMeshesSeq(ns: seq<Node>)
    ensures OnlyMaterialsDifferSeq(ns, RemoveHighlightSeq(ns))
  {
    if ns != [] {
      RemoveTouchesOnlyMeshes(ns[0]);
      RemoveTouchesOnlyMeshesSeq(ns[1..]);
    }
  }

  /** After `disposeObject`, every mesh's geometry and materials are disposed,
      and nothing but meshes changed: each mesh shows the same materials, now
      disposed, and keeps its saved original untouched. */
  lemma {:induction false} DisposeReleasesEveryMesh(n: Node)
    ensures FullyDisposed(Dispose(n))
    ensures SameStructure(n, Dispose(n))
    ensures var before, after := Materials(n), Materials(Dispose(n));
      |after| == |before| && forall i :: 0 <= i < |before| ==> after[i] == before[i].(disposed := true)
    ensures SavedSlots(Dispose(n)) == SavedSlots(n)
  {
    DisposeReleasesEveryMeshSeq(n.children);
  }

  lemma {:induction false} DisposeReleasesEveryMeshSeq(ns: seq<Node>)
    ensures FullyDisposedSeq(DisposeSeq(ns))
    ensures SameStructureSeq(ns, DisposeSeq(ns))
  {
    if ns != [] {
      DisposeReleasesEveryMesh(ns[0]);
      DisposeReleasesEveryMeshSeq(ns[1..]);
      assert DisposeSeq(ns)[1..] == DisposeSeq(ns[1..]);
    }
  }

  /** After setting the wireframe flag to `mode`, every material that has the
      property shows `mode`, and nothing but mesh materials changed. */
  lemma {:induction false} SetWireframeEstablishes(n: Node, mode: bool)
    ensures WireframeIs(SetWireframe(n, mode), mode)
    ensures OnlyMaterialsDiffer(n, SetWireframe(n, mode))
  {
    SetWireframeEstablishesSeq(n.children, mode);
  }

  lemma {:induction false} SetWireframeEstablishesSeq(ns: seq<Node>, mode: bool)
    ensures WireframeIsSeq(SetWireframeSeq(ns, mode), mode)
    ensures OnlyMaterialsDifferSeq(ns, SetWireframeSeq(ns, mode))
  {
    if ns != [] {
      SetWireframeEstablishes(ns[0], mode);
      SetWireframeEstablishesSeq(ns[1..], mode);
      assert SetWireframeSeq(ns, mode)[1..] == SetWireframeSeq(ns[1..], mode);
    }
  }

  lemma WireSlotLastWins(s: Slot, a: bool, b: bool)
    ensures WireSlot(WireSlot(s, a), b) == WireSlot(s, b)
  {
    match s
    case Single(m) =>
    case Multi(ms) =>
      assert WireSlot(WireSlot(s, a), b).ms == WireSlot(s, b).ms;
  }

  /** Only the last wireframe setting matters: setting `a` and then `b` is the
      same as setting `b` directly. */
  lemma {:induction false} SetWireframeLastWins(n: Node, a: bool, b: bool)
    ensures SetWireframe(SetWireframe(n, a), b) == SetWireframe(n, b)
  {
    WireSlotLastWins(if n.Mesh? then n.material else Single(Material(0, 0, false, 0.0, None, false)), a, b);
    SetWireframeLastWinsSeq(n.children, a, b);
  }

  lemma {:induction false} SetWireframeLastWinsSeq(ns: seq<Node>, a: bool, b: bool)
    ensures SetWireframeSeq(SetWireframeSeq(ns, a), b) == SetWireframeSeq(ns, b)
  {
    if ns != [] {
      SetWireframeLastWins(ns[0], a, b);
      SetWireframeLastWinsSeq(ns[1..], a, b);
      assert SetWireframeSeq(ns, a)[1..] == SetWireframeSeq(ns[1..], a);
    }
  }

  /** A material without a `wireframe` property is never changed by the
      traversal, in single and array slots alike and on every mesh; every
      other material changes in its `wireframe` field only. */
  lemma {:induction false} WireframeSkipsMaterialsWithoutTheProperty(n: Node, mode: bool)
    ensures var before, after := Materials(n), Materials(SetWireframe(n, mode));
      && |after| == |before|
      && (forall i :: 0 <= i < |before| && before[i].wireframe.None? ==> after[i] == before[i])
      && (forall i :: 0 <= i < |before| && before[i].wireframe.Some? ==> after[i] == before[i].(wireframe := Some(mode)))
  {
    WireframeSkipsSeq(n.children, mode);
  }

  lemma {:induction false} WireframeSkipsSeq(ns: seq<Node>, mode: bool)
    ensures var before, after := MaterialsSeq(ns), MaterialsSeq(SetWireframeSeq(ns, mode));
      && |after| == |before|
      && (forall i :: 0 <= i < |before| && before[i].wireframe.None? ==> after[i] == before[i])
      && (forall i :: 0 <= i < |before| && before[i].wireframe.Some? ==> after[i] == before[i].(wireframe := Some(mode)))
  {
    if ns != [] {
      WireframeSkipsMaterialsWithoutTheProperty(ns[0], mode);
      WireframeSkipsSeq(ns[1..], mode);
      assert SetWireframeSeq(ns, mode)[1..] == SetWireframeSeq(ns[1..], mode);
    }
  }

  /** Highlighting allocates fresh materials: when every id already in the
      tree is below `next`, the highlight materials carry pairwise distinct
      ids from `next` up to the returned counter, none of them in use before. */
  lemma HighlightAllocatesFreshIds(n: Node, color: int, next: nat)
    requires forall i :: 0 <= i < |Materials(n)| ==> Materials(n)[i].id < next
    ensures var (h, next') := Highlight(n, color, next);
      && (forall i, j :: 0 <= i < j < |Materials(h)| ==> Materials(h)[i].id != Materials(h)[j].id)
      && (forall i :: 0 <= i < |Materials(h)| ==> next <= Materials(h)[i].id < next')
      && (forall i, j :: 0 <= i < |Materials(h)| && 0 <= j < |Materials(n)| ==> Materials(h)[i].id != Materials(n)[j].id)
  {
  }

  /** A tree without meshes is left exactly as it is by every helper. */
  lemma {:induction false} MeshFreeTreesUntouched(n: Node, color: int, next: nat, mode: bool)
    requires MeshCount(n) == 0
    ensures Highlight(n, color, next).0 == n
    ensures RemoveHighlight(n) == n
    ensures Dispose(n) == n
    ensures SetWireframe(n, mode) == n
  {
    MeshFreeTreesUntouchedSeq(n.children, color, next, mode);
  }

  lemma {:induction false} MeshFreeTreesUntouchedSeq(ns: seq<Node>, color: int, next: nat, mode: bool)
    requires MeshCountSeq(ns) == 0
    ensures HighlightSeq(ns, color, next).0 == ns
    ensures RemoveHighlightSeq(ns) == ns
    ensures DisposeSeq(ns) == ns
    ensures SetWireframeSeq(ns, mode) == ns
  {
    if ns != [] {
      MeshFreeTreesUntouched(ns[0], color, next, mode);
      MeshFreeTreesUntouchedSeq(ns[1..], color, next, mode);
      assert Highlight(ns[0], color, next).1 == next;
      assert HighlightSeq(ns, color, next).0 == [ns[0]] + ns[1..];
    }
  }
}

=== FILE: signup.dfy ===
/** The sign-up screen's submit handler: the two password checks, in order,
    before the account is requested, and the messages shown afterwards. The
    auth service's answer is an oracle. */
module SignUp {
  import opened Common

  const MismatchMessage: string := "Passwords do not match"
  const TooShortMessage: string := "Password must be at least 6 characters long"
  const SuccessMessage: string := "Account created successfully! Please check your email to verify your account."
  const MinPasswordLength: nat := 6

  datatype SignUpForm = SignUpForm(
    email: string,
    password: string,
    confirmPassword: string,
    fullName: string,
    loading: bool,
    error: string,
    success: string)

  /** What the auth service's `signUp` does: resolve without an error,
      resolve with an error message, or reject. */
  datatype SignUpAnswer = Created | Refused(message: string) | Rejected

  /** The account request: email, password and full name. */
  datatype Request = Request(email: string, password: string, fullName: string)

  /** The form after a submit, and the account request made, if any. */
  datatype Outcome = Outcome(form: SignUpForm, request: Option<Request>)

  /** Which check, if any, stops a submit; a mismatch is reported before a
      short password. */
  function Check(password: string, confirmPassword: string): (r: Option<string>)
    ensures password != confirmPassword ==> r == Some(MismatchMessage)
    ensures password == confirmPassword && |password| < MinPasswordLength ==> r == Some(TooShortMessage)
    ensures r.None? <==> password == confirmPassword && |password| >= MinPasswordLength
  {
    if password != confirmPassword then Some(MismatchMessage)
    else if |password| < MinPasswordLength then Some(TooShortMessage)
    else None
  }

  /** `handleSubmit`: error and success are cleared first; a failed check
      shows its message and requests nothing; otherwise the account is
      requested with the form's fields, and the service's error or the
      success text is shown. Loading ends on every path on which `signUp`
      settles; a rejection leaves the handler with loading still set. */
  function HandleSubmit(f: SignUpForm, answer: SignUpAnswer): (r: Outcome)
    ensures r.request.Some? <==> Check(f.password, f.confirmPassword).None?
    ensures r.request.Some? ==> r.request.value == Request(f.email, f.password, f.fullName)
    ensures r.request.None? ==>
      && r.form.error == Check(f.password, f.confirmPassword).value
      && r.form.success == "" && !r.form.loading
    ensures r.request.Some? && answer.Created? ==> r.form.error == "" && r.form.success == SuccessMessage && !r.form.loading
    ensures r.request.Some? && answer.Refused? ==> r.form.error == answer.message && r.form.success == "" && !r.form.loading
    ensures r.request.Some? && answer.Rejected? ==> r.form.error == "" && r.form.success == "" && r.form.loading
    ensures r.form.email == f.email && r.form.password == f.password
    ensures r.form.confirmPassword == f.confirmPassword && r.form.fullName == f.fullName
  {
    var f1 := f.(loading := true, error := "", success := "");
    match Check(f.password, f.confirmPassword)
    case Some(message) => Outcome(f1.(error := message, loading := false), None)
    case None =>
      var request := Some(Request(f.email, f.password, f.fullName));
      match answer
      case Created => Outcome(f1.(success := SuccessMessage, loading := false), request)
      case Refused(message) => Outcome(f1.(error := message, loading := false), request)
      case Rejected => Outcome(f1, request)
  }

  /** Whatever was on screen before, a submit never shows both an error and
      the success text, and a mismatch is reported even for a short password. */
  lemma MessagesExclusive(f: SignUpForm, answer: SignUpAnswer)
    ensures var r := HandleSubmit(f, answer).form; r.error == "" || r.success == ""
    ensures f.password != f.confirmPassword ==> HandleSubmit(f, answer).form.error == MismatchMessage
  {
  }
}

=== FILE: strings.dfy ===
/** The handful of JavaScript string operations the application relies on:
    `toLowerCase`, `endsWith`, `includes`, `indexOf`, `replace` with a string
    pattern (first occurrence only), `substring` and integer `toString`. */
module Strings {
  import opened Common

  /** `pat` occurs in `s` starting at index `i`. */
  predicate StartsAt(s: string, pat: string, i: nat) {
    i + |pat| <= |s| && s[i..i + |pat|] == pat
  }

  /** `s.endsWith(suffix)`. */
  predicate EndsWith(s: string, suffix: string) {
    |suffix| <= |s| && s[|s| - |suffix|..] == suffix
  }

  /** The first index at or after `i` where `pat` occurs. */
  function FindFrom(s: string, pat: string, i: nat): (r: Option<nat>)
    requires i <= |s|
    ensures r.Some? ==> i <= r.value && StartsAt(s, pat, r.value)
    ensures r.Some? ==> forall j :: i <= j < r.value ==> !StartsAt(s, pat, j)
    ensures r.None? ==> forall j: nat :: i <= j ==> !StartsAt(s, pat, j)
    decreases |s| - i
  {
    if StartsAt(s, pat, i) then Some(i)
    else if i == |s| then None
    else FindFrom(s, pat, i + 1)
  }

  /** `s.indexOf(pat)`, with `None` for JavaScript's `-1`. */
  function IndexOf(s: string, pat: string): (r: Option<nat>)
    ensures r.Some? ==> StartsAt(s, pat, r.value)
    ensures r.Some? ==> forall j :: 0 <= j < r.value ==> !StartsAt(s, pat, j)
    ensures r.None? <==> forall j: nat :: !StartsAt(s, pat, j)
  {
    FindFrom(s, pat, 0)
  }

  /** `s.includes(pat)`. */
  predicate Includes(s: string, pat: string) {
    IndexOf(s, pat).Some?
  }

  /** `s.replace(pat, rep)` with a string pattern: only the FIRST occurrence,
      compared case-sensitively, is replaced; no occurrence leaves `s` as it is.
      (Neither replacement used by the application contains a `$` pattern.) */
  function ReplaceFirst(s: string, pat: string, rep: string): (r: string)
    ensures !Includes(s, pat) ==> r == s
    ensures Includes(s, pat) ==>
      var k := IndexOf(s, pat).value;
      && |r| == |s| - |pat| + |rep|
      && r[..k] == s[..k]
      && r[k..k + |rep|] == rep
      && r[k + |rep|..] == s[k + |pat|..]
      && forall j :: 0 <= j < k ==> !StartsAt(s, pat, j)
  {
    match IndexOf(s, pat)
    case None => s
    case Some(k) => s[..k] + rep + s[k + |pat|..]
  }

  /** When the only occurrence of `pat` is at the very end, replacing the first
      occurrence replaces that suffix. */
  lemma ReplaceSoleSuffix(s: string, pat: string, rep: string)
    requires EndsWith(s, pat)
    requires forall j :: 0 <= j < |s| - |pat| ==> !StartsAt(s, pat, j)
    ensures ReplaceFirst(s, pat, rep) == s[..|s| - |pat|] + rep
  {
    assert StartsAt(s, pat, |s| - |pat|);
    assert IndexOf(s, pat) == Some(|s| - |pat|);
  }

  /** ASCII `toLowerCase` of one character. */
  function LowerChar(c: char): (r: char)
    ensures 'A' <= c <= 'Z' ==> r as int == c as int + 32
    ensures !('A' <= c <= 'Z') ==> r == c
    ensures !('A' <= r <= 'Z')
  {
    if 'A' <= c <= 'Z' then (c as int + 32) as char else c
  }

  /** `s.toLowerCase()` restricted to ASCII letters. */
  function Lower(s: string): (r: string)
    ensures |r| == |s|
    ensures forall i :: 0 <= i < |s| ==> r[i] == LowerChar(s[i])
  {
    seq(|s|, i requires 0 <= i < |s| => LowerChar(s[i]))
  }

  /** `s.substring(0, n)` for `n <= |s|`. */
  function Prefix(s: string, n: nat): (r: string)
    ensures |r| == if n <= |s| then n else |s|
    ensures r <= s
  {
    if n <= |s| then s[..n] else s
  }

  function DigitChar(d: nat): (c: char)
    requires d < 10
    ensures '0' <= c <= '9'
  {
    ('0' as int + d) as char
  }

  function DigitValue(c: char): (d: nat)
    requires '0' <= c <= '9'
    ensures d < 10
  {
    c as int - '0' as int
  }

  predicate AllDigits(s: string) {
    forall i :: 0 <= i < |s| ==> '0' <= s[i] <= '9'
  }

  /** Decimal digits of a natural number, most significant first. */
  function NatToDecimal(n: nat): (r: string)
    ensures |r| > 0 && AllDigits(r)
  {
    if n < 10 then [DigitChar(n)] else NatToDecimal(n / 10) + [DigitChar(n % 10)]
  }

  /** The value a string of decimal digits denotes. */
  function DecimalToNat(s: string): nat
    requires AllDigits(s)
  {
    if |s| == 0 then 0 else DecimalToNat(s[..|s| - 1]) * 10 + DigitValue(s[|s| - 1])
  }

  /** Reading back the digits written for `n` gives `n`. */
  lemma {:induction false} DecimalRoundTrip(n: nat)
    ensures DecimalToNat(NatToDecimal(n)) == n
  {
    var s := NatToDecimal(n);
    if n >= 10 {
      var p := NatToDecimal(n / 10);
      assert s == p + [DigitChar(n % 10)];
      assert s[..|s| - 1] == p;
      DecimalRoundTrip(n / 10);
    }
  }

  /** `Number.prototype.toString()` on an integer. */
  function IntToString(i: int): (r: string)
    ensures |r| > 0
    ensures i < 0 <==> r[0] == '-'
  {
    if i < 0 then "-" + NatToDecimal(-i) else NatToDecimal(i)
  }

  /** Integer `toString` is injective: the sign and digits give the value back. */
  lemma IntToStringRoundTrip(i: int)
    ensures i < 0 ==> AllDigits(IntToString(i)[1..]) && -(DecimalToNat(IntToString(i)[1..]) as int) == i
    ensures i >= 0 ==> AllDigits(IntToString(i)) && DecimalToNat(IntToString(i)) == i
  {
    if i < 0 {
      assert IntToString(i)[1..] == NatToDecimal(-i);
      DecimalRoundTrip(-i);
    } else {
      DecimalRoundTrip(i);
    }
  }
}

=== FILE: upload.dfy ===
/** The upload dialog: the `.ifc` file check and default project name, the
    submit gate, and the submit sequence (bucket check, storage upload,
    public URL, project insert) with its error classification. Storage and
    database answers are oracles; the clock reading and the random token of
    the storage path are parameters. */
module Upload {
  import opened Common
  import opened Strings
  import opened Records

  const Extension: string := ".ifc"
  const BucketName: string := "ifc-files"
  const InvalidFileMessage: string := "Please select a valid IFC file"
  const MissingFieldsMessage: string := "Please ensure you are logged in and all fields are filled"
  const NoBucketThrown: string :=
    "Storage " + "bucket" + " \"ifc-files\" not found. Please create it in Supabase dashboard."
  const BucketMessage: string := "Storage bucket not found. Please create \"ifc-files\" bucket in Supabase dashboard."
  const TimeoutMessage: string := "Upload timeout. Please try with a smaller file."
  const SizeMessage: string := "File too large. Please try with a smaller IFC file."
  const FallbackMessage: string := "Failed to upload file. Please try again."
  const DefaultDescription: string := "Uploaded IFC project"

  /** The dialog's state; a chosen file is represented by its name. */
  datatype Form = Form(
    file: Option<string>,
    name: string,
    description: string,
    isPublic: bool,
    uploading: bool,
    error: string)

  // ---------------------------------------------------------------------
  // File choice

  predicate IsIfcName(fileName: string) {
    EndsWith(Lower(fileName), Extension)
  }

  /** `handleFileChange`: no selection changes nothing. A file whose name
      ends in `.ifc`, in any letter case, is taken, the error cleared, and an
      empty project name filled from the file name with the first exact
      `.ifc` removed. Any other file is rejected with an error and the file
      cleared; the name is kept. */
  function HandleFileChange(f: Form, selected: Option<string>): (r: Form)
    ensures selected.None? ==> r == f
    ensures selected.Some? ==> (r.file.Some? <==> IsIfcName(selected.value))
    ensures selected.Some? && IsIfcName(selected.value) ==>
      && r.file == selected && r.error == ""
      && r.name == (if f.name == "" then ReplaceFirst(selected.value, Extension, "") else f.name)
    ensures selected.Some? && !IsIfcName(selected.value) ==>
      r.error == InvalidFileMessage && r.name == f.name
    ensures r.description == f.description && r.isPublic == f.isPublic && r.uploading == f.uploading
  {
    match selected
    case None => f
    case Some(fileName) =>
      if IsIfcName(fileName) then
        var name := if f.name == "" then ReplaceFirst(fileName, Extension, "") else f.name;
        f.(file := Some(fileName), name := name, error := "")
      else
        f.(error := InvalidFileMessage, file := None)
  }

  /** For an ordinary file name, one `.ifc` at the very end, the default
      name is the name without it. */
  lemma DefaultNameDropsExtension(f: Form, fileName: string)
    requires f.name == ""
    requires EndsWith(fileName, Extension)
    requires forall j :: 0 <= j < |fileName| - 4 ==> !StartsAt(fileName, Extension, j)
    ensures HandleFileChange(f, Some(fileName)).name == fileName[..|fileName| - 4]
  {
    assert Lower(fileName)[|fileName| - 4..] == Extension;
    ReplaceSoleSuffix(fileName, Extension, "");
  }

  /** The extension check ignores letter case but the removal does not: a
      file accepted as IFC with no exact lower-case `.ifc` in its name, such
      as `A.IFC`, becomes the default name unchanged, extension included. */
  lemma UpperCaseExtensionKept(f: Form, fileName: string)
    requires f.name == ""
    requires IsIfcName(fileName) && !Includes(fileName, Extension)
    ensures HandleFileChange(f, Some(fileName)).file == Some(fileName)
    ensures HandleFileChange(f, Some(fileName)).name == fileName
    ensures HandleFileChange(f, Some("A.IFC")).file == Some("A.IFC")
    ensures HandleFileChange(f, Some("A.IFC")).name == "A.IFC"
  {
    assert Lower("A.IFC") == "a.ifc";
    assert "A.IFC"[0] == 'A';
    assert "A.IFC"[2] == 'I';
    assert !StartsAt("A.IFC", Extension, 0) by { assert "A.IFC"[0..4][0] == 'A'; }
    assert !StartsAt("A.IFC", Extension, 1) by { assert "A.IFC"[1..5][1] == 'I'; }
    assert !Includes("A.IFC", Extension);
  }

  // ---------------------------------------------------------------------
  // Submit gate

  /** The check at the top of `handleSubmit`: a file, a non-empty name and a
      profile with a non-empty id. */
  predicate Ready(f: Form, profile: Option<UserProfile>) {
    f.file.Some? && f.name != "" && profile.Some? && profile.value.id != ""
  }

  /** The submit button's `disabled` attribute. */
  function SubmitDisabled(f: Form): (r: bool)
    ensures !r <==> f.file.Some? && f.name != "" && !f.uploading
  {
    f.file.None? || f.name == "" || f.uploading
  }

  /** For a signed-in user with an id, the button is enabled exactly when a
      submit would pass the check and no upload is running. */
  lemma EnabledIffReady(f: Form, profile: Option<UserProfile>)
    requires profile.Some? && profile.value.id != ""
    ensures !SubmitDisabled(f) <==> Ready(f, profile) && !f.uploading
  {
  }

  // ---------------------------------------------------------------------
  // Submit

  /** A thrown error; `message` may be missing. */
  datatype ThrownError = ThrownError(message: Option<string>)

  /** The answers of storage and database. `buckets` is the bucket list (or
      nothing, when listing failed); `upload` and `insert` are the errors
      those calls returned, if any; `publicUrl` is the URL storage reports. */
  datatype Backend = Backend(
    buckets: Option<seq<string>>,
    upload: Option<ThrownError>,
    publicUrl: string,
    insert: Option<ThrownError>)

  /** The row `handleSubmit` inserts. */
  datatype NewProject = NewProject(
    name: string,
    description: string,
    ifcFileUrl: string,
    thumbnailUrl: string,
    createdBy: string,
    isPublic: bool)

  /** The dialog after a submit, the storage path written to and the row
      inserted (each when that call was made), and whether `onSuccess` ran. */
  datatype Submitted = Submitted(
    form: Form,
    uploadedTo: Option<string>,
    inserted: Option<NewProject>,
    succeeded: bool)

  /** The error text shown for a caught error, by priority: a message
      mentioning `bucket`, then `timeout`, then `size`; else the message
      itself when non-empty; else a generic text. */
  function Classify(e: ThrownError): (r: string)
    ensures r != ""
    ensures e.message.Some? && Includes(e.message.value, "bucket") ==> r == BucketMessage
    ensures e.message.Some? && !Includes(e.message.value, "bucket") && Includes(e.message.value, "timeout") ==>
      r == TimeoutMessage
    ensures (e.message.Some? && !Includes(e.message.value, "bucket") && !Includes(e.message.value, "timeout")
             && Includes(e.message.value, "size")) ==> r == SizeMessage
    ensures (e.message.Some? && e.message.value != "" && !Includes(e.message.value, "bucket")
             && !Includes(e.message.value, "timeout") && !Includes(e.message.value, "size")) ==> r == e.message.value
    ensures r !in {BucketMessage, TimeoutMessage, SizeMessage, FallbackMessage} ==> e.message == Some(r)
    ensures e.message.None? || e.message == Some("") ==> r == FallbackMessage
  {
    match e.message
    case None => FallbackMessage
    case Some(m) =>
      if Includes(m, "bucket") then BucketMessage
      else if Includes(m, "timeout") then TimeoutMessage
      else if Includes(m, "size") then SizeMessage
      else if m != "" then m
      else FallbackMessage
  }

  /** The three tiers of the classification: a message naming one of the
      keywords always gives a fixed text, whatever else it says; a non-empty
      message naming none of them is shown verbatim; and a text other than
      the fixed ones can only be such a verbatim message. */
  lemma ClassifyTiers(e: ThrownError)
    ensures e.message.Some? && (Includes(e.message.value, "bucket") || Includes(e.message.value, "timeout")
                                || Includes(e.message.value, "size")) ==>
      Classify(e) in {BucketMessage, TimeoutMessage, SizeMessage}
    ensures Classify(e) !in {BucketMessage, TimeoutMessage, SizeMessage, FallbackMessage} ==>
      && e.message == Some(Classify(e))
      && !Includes(Classify(e), "bucket") && !Includes(Classify(e), "timeout") && !Includes(Classify(e), "size")
  {
  }

  /** The storage object path, `projects/<milliseconds>-<token>.ifc`. */
  function StoragePath(stamp: nat, token: string): (r: string)
    ensures |r| == 9 + |NatToDecimal(stamp)| + 1 + |token| + 4
    ensures r[..9] == "projects/"
    ensures EndsWith(r, Extension)
    ensures var digits := NatToDecimal(stamp);
      && r[9..9 + |digits|] == digits
      && DecimalToNat(r[9..9 + |digits|]) == stamp
      && r[9 + |digits|] == '-'
      && r[10 + |digits|..|r| - 4] == token
  {
    DecimalRoundTrip(stamp);
    "projects/" + NatToDecimal(stamp) + "-" + token + Extension
  }

  /** The thumbnail URL: the public URL with its first exact `.ifc` made `.jpg`. */
  function ThumbnailUrl(publicUrl: string): (r: string)
    ensures |r| == |publicUrl|
    ensures !Includes(publicUrl, Extension) ==> r == publicUrl
  {
    ReplaceFirst(publicUrl, Extension, ".jpg")
  }

  /** When the URL mentions `.ifc` only at its end, as the storage path
      does, the thumbnail is the same URL ending in `.jpg`. */
  lemma ThumbnailSwapsExtension(publicUrl: string)
    requires EndsWith(publicUrl, Extension)
    requires forall j :: 0 <= j < |publicUrl| - 4 ==> !StartsAt(publicUrl, Extension, j)
    ensures ThumbnailUrl(publicUrl) == publicUrl[..|publicUrl| - 4] + ".jpg"
    ensures EndsWith(ThumbnailUrl(publicUrl), ".jpg")
  {
    ReplaceSoleSuffix(publicUrl, Extension, ".jpg");
  }

  function Fail(f: Form, e: ThrownError, uploadedTo: Option<string>, inserted: Option<NewProject>): Submitted {
    Submitted(f.(error := Classify(e), uploading := false), uploadedTo, inserted, false)
  }

  /** `handleSubmit`. A form that fails the check only gets the error. Then:
      no `ifc-files` bucket aborts before any upload; an upload error aborts
      before the insert; an insert error aborts before `onSuccess`. Every
      caught error is classified, and `uploading` ends false on every path. */
  function HandleSubmit(f: Form, profile: Option<UserProfile>, backend: Backend, stamp: nat, token: string): (r: Submitted)
    ensures !Ready(f, profile) ==>
      r == Submitted(f.(error := MissingFieldsMessage), None, None, false)
    ensures Ready(f, profile) ==> !r.form.uploading
    ensures r.succeeded ==> Ready(f, profile) && r.form.error == "" && r.inserted.Some? && r.uploadedTo.Some?
    ensures r.uploadedTo.Some? ==>
      && Ready(f, profile)
      && backend.buckets.Some? && BucketName in backend.buckets.value
      && r.uploadedTo == Some(StoragePath(stamp, token))
    ensures r.inserted.Some? ==>
      && r.uploadedTo.Some? && backend.upload.None?
      && r.inserted.value.name == f.name
      && r.inserted.value.description == (if f.description == "" then DefaultDescription else f.description)
      && r.inserted.value.ifcFileUrl == backend.publicUrl
      && r.inserted.value.thumbnailUrl == ThumbnailUrl(backend.publicUrl)
      && r.inserted.value.createdBy == profile.value.id
      && r.inserted.value.isPublic == f.isPublic
    ensures Ready(f, profile) && !r.succeeded ==> r.form.error != ""
    ensures r.form == f.(error := r.form.error, uploading := r.form.uploading)
    ensures Ready(f, profile) && (backend.buckets.None? || BucketName !in backend.buckets.value) ==>
      && r.form.error == Classify(ThrownError(Some(NoBucketThrown)))
      && r.uploadedTo.None? && r.inserted.None? && !r.succeeded
    ensures Ready(f, profile) && backend.buckets.Some? && BucketName in backend.buckets.value
            && backend.upload.Some? ==>
      && r.form.error == Classify(backend.upload.value)
      && r.uploadedTo == Some(StoragePath(stamp, token))
      && r.inserted.None? && !r.succeeded
    ensures Ready(f, profile) && backend.buckets.Some? && BucketName in backend.buckets.value
            && backend.upload.None? && backend.insert.Some? ==>
      && r.form.error == Classify(backend.insert.value)
      && r.uploadedTo == Some(StoragePath(stamp, token))
      && r.inserted.Some? && !r.succeeded
    ensures r.succeeded ==> r.form.error == "" && !r.form.uploading
    ensures r.succeeded <==>
      Ready(f, profile) && backend.buckets.Some? && BucketName in backend.buckets.value
      && backend.upload.None? && backend.insert.None?
  {
    if !Ready(f, profile) then
      Submitted(f.(error := MissingFieldsMessage), None, None, false)
    else
      var f1 := f.(uploading := true, error := "");
      if backend.buckets.None? || BucketName !in backend.buckets.value then
        Fail(f1, ThrownError(Some(NoBucketThrown)), None, None)
      else
        var path := StoragePath(stamp, token);
        if backend.upload.Some? then
          Fail(f1, backend.upload.value, Some(path), None)
        else
          var row := NewProject(
            f.name,
            if f.description != "" then f.description else DefaultDescription,
            backend.publicUrl,
            ThumbnailUrl(backend.publicUrl),
            profile.value.id,
            f.isPublic);
          if backend.insert.Some? then
            Fail(f1, backend.insert.value, Some(path), Some(row))
          else
            Submitted(f1.(uploading := false), Some(path), Some(row), true)
  }

  /** A missing bucket is reported with the bucket text: the message thrown
      for it mentions `bucket`, so the classification picks it first. */
  lemma MissingBucketReported(f: Form, profile: Option<UserProfile>, backend: Backend, stamp: nat, token: string)
    requires Ready(f, profile)
    requires backend.buckets.None? || BucketName !in backend.buckets.value
    ensures HandleSubmit(f, profile, backend, stamp, token).form.error == BucketMessage
    ensures HandleSubmit(f, profile, backend, stamp, token).uploadedTo.None?
  {
    var m := NoBucketThrown;
    assert m[8..14] == "bucket";
    assert StartsAt(m, "bucket", 8);
  }
}

=== FILE: viewer_controls.dfy ===
/** The viewer's control overlay: the wireframe toggle over the loaded model
    and the screenshot file name. */
module ViewerControls {
  import opened Common
  import opened Strings
  import opened SceneTree
  import Records

  /** The overlay's wireframe flag and the loaded model, if any. */
  datatype Overlay = Overlay(wireframeMode: bool, model: Option<Node>)

  /** `toggleWireframe`: without a model nothing happens; otherwise the flag
      is negated and the model is traversed with the new value: every
      material with a `wireframe` property, on every mesh, takes it; a
      material without the property is untouched; nothing but mesh
      materials changes. */
  function ToggleWireframe(o: Overlay): (r: Overlay)
    ensures o.model.None? ==> r == o
    ensures o.model.Some? ==>
      && r.wireframeMode == !o.wireframeMode
      && r.model == Some(SetWireframe(o.model.value, r.wireframeMode))
      && WireframeIs(r.model.value, r.wireframeMode)
      && OnlyMaterialsDiffer(o.model.value, r.model.value)
    ensures o.model.Some? ==>
      var before, after := Materials(o.model.value), Materials(r.model.value);
      && |after| == |before|
      && (forall i :: 0 <= i < |before| && before[i].wireframe.None? ==> after[i] == before[i])
      && (forall i :: 0 <= i < |before| && before[i].wireframe.Some? ==>
            after[i] == before[i].(wireframe := Some(r.wireframeMode)))
  {
    match o.model
    case None => o
    case Some(t) =>
      var mode := !o.wireframeMode;
      SetWireframeEstablishes(t, mode);
      WireframeSkipsMaterialsWithoutTheProperty(t, mode);
      Overlay(mode, Some(SetWireframe(t, mode)))
  }

  /** Two toggles bring the flag back, and every material with the property
      then shows that original flag, whatever it showed before. */
  lemma ToggleTwice(o: Overlay)
    requires o.model.Some?
    ensures var r := ToggleWireframe(ToggleWireframe(o));
      && r.wireframeMode == o.wireframeMode
      && r.model == Some(SetWireframe(o.model.value, o.wireframeMode))
      && WireframeIs(r.model.value, o.wireframeMode)
  {
    SetWireframeLastWins(o.model.value, !o.wireframeMode, o.wireframeMode);
  }

  /** `exportScreenshot`'s download name: the project's name with `.png`, or
      `screenshot.png` when there is no project or its name is empty. */
  function ScreenshotFileName(project: Option<Records.BIMProject>): (r: string)
    ensures EndsWith(r, ".png")
    ensures r[..|r| - 4] == if project.Some? && project.value.name != "" then project.value.name else "screenshot"
  {
    var base := if project.Some? && project.value.name != "" then project.value.name else "screenshot";
    base + ".png"
  }
}

=== FILE: xr_session.dfy ===
/** The simple BIM viewer's lifecycle and its WebXR session negotiation:
    the support probe run after mount, `initializeViewer`, `toggleAR` (enter
    and exit), the session's `end` listener, and the unmount `cleanup`.

    The browser is an oracle: `navigator.xr` is present or not, and when
    present it answers (or throws on) `isSessionSupported` per mode; a
    session request is granted or rejected; `renderer.xr.setSession` succeeds
    or throws. React state updates are applied at once. */
module XrSession {
  import opened Common
  import SceneTree
  import SceneSetup

  /** The XR session mode vocabulary. */
  datatype Mode = ImmersiveAr | ImmersiveVr | Inline

  function ModeName(m: Mode): string {
    match m
    case ImmersiveAr => "immersive-ar"
    case ImmersiveVr => "immersive-vr"
    case Inline => "inline"
  }

  /** The answer of one `isSessionSupported(mode)` call. */
  datatype Query = Answer(supported: bool) | Threw

  /** The XR runtime behind `navigator.xr`, as its answers per mode. */
  datatype XrRuntime = XrRuntime(ar: Query, vr: Query, inline: Query)

  function Ask(rt: XrRuntime, m: Mode): Query {
    match m
    case ImmersiveAr => rt.ar
    case ImmersiveVr => rt.vr
    case Inline => rt.inline
  }

  // ---------------------------------------------------------------------
  // The support probe (checkXrSupport)

  /** The outcome of the probe: overall support, and the modes queried, in order. */
  datatype Probe = Probe(supported: bool, queried: seq<Mode>)

  /** Without `navigator.xr` nothing is queried and support is false.
      Otherwise immersive-vr, immersive-ar and inline are queried in that
      order; a query that throws counts as unsupported, and overall support
      is true iff some mode answered yes. */
  function CheckXrSupport(xr: Option<XrRuntime>): (r: Probe)
    ensures xr.None? ==> r == Probe(false, [])
    ensures xr.Some? ==> r.queried == [ImmersiveVr, ImmersiveAr, Inline]
    ensures r.supported <==> xr.Some? && exists m :: Ask(xr.value, m) == Answer(true)
  {
    match xr
    case None => Probe(false, [])
    case Some(rt) =>
      var results := map m: Mode | true :: Ask(rt, m) == Answer(true);
      assert results[ImmersiveVr] <==> Ask(rt, ImmersiveVr) == Answer(true);
      assert results[ImmersiveAr] <==> Ask(rt, ImmersiveAr) == Answer(true);
      assert results[Inline] <==> Ask(rt, Inline) == Answer(true);
      Probe(results[ImmersiveVr] || results[ImmersiveAr] || results[Inline],
            [ImmersiveVr, ImmersiveAr, Inline])
  }

  // ---------------------------------------------------------------------
  // Mode selection on entry

  /** The order in which entry tries the modes. */
  const Priority: seq<Mode> := [ImmersiveAr, ImmersiveVr, Inline]

  function Rank(m: Mode): (k: nat)
    ensures k < |Priority| && Priority[k] == m
  {
    match m
    case ImmersiveAr => 0
    case ImmersiveVr => 1
    case Inline => 2
  }

  /** The index of the first mode in `modes` whose query does not answer
      "unsupported", or `|modes|` when every one does. */
  function FirstDecided(rt: XrRuntime, modes: seq<Mode>): (k: nat)
    ensures k <= |modes|
    ensures forall j :: 0 <= j < k ==> Ask(rt, modes[j]) == Answer(false)
    ensures k < |modes| ==> Ask(rt, modes[k]) != Answer(false)
  {
    if modes == [] then 0
    else if Ask(rt, modes[0]) == Answer(false) then 1 + FirstDecided(rt, modes[1..])
    else 0
  }

  datatype Selection = Selected(mode: Mode) | NoneSupported | QueryFailed(mode: Mode)

  /** Which mode entry requests. Unlike the probe, entry does not catch a
      query that throws: the throw aborts entry. A lower mode is asked about
      only when every higher one answered "unsupported". */
  function SelectMode(xr: Option<XrRuntime>): (r: Selection)
    ensures r.Selected? ==> xr.Some? && Ask(xr.value, r.mode) == Answer(true)
    ensures r.Selected? || r.QueryFailed? ==>
      (xr.Some? && forall j :: 0 <= j < Rank(r.mode) ==> Ask(xr.value, Priority[j]) == Answer(false))
    ensures r.QueryFailed? ==> xr.Some? && Ask(xr.value, r.mode) == Threw
    ensures r.NoneSupported? <==> xr.None? || forall m :: Ask(xr.value, m) == Answer(false)
  {
    match xr
    case None => NoneSupported
    case Some(rt) =>
      var k := FirstDecided(rt, Priority);
      if k == |Priority| then
        assert forall m :: Ask(rt, m) == Answer(false) by {
          forall m ensures Ask(rt, m) == Answer(false) { assert Priority[Rank(m)] == m; }
        }
        NoneSupported
      else
        var m := Priority[k];
        assert Rank(m) == k;
        if Ask(rt, m) == Threw then QueryFailed(m) else Selected(m)
  }

  /** The `requestSession` options for a mode. */
  datatype SessionInit = SessionInit(requiredFeatures: seq<string>, optionalFeatures: seq<string>, domOverlay: bool)

  /** immersive-ar requires a floor reference and hit testing, immersive-vr
      only a floor reference, inline nothing; every mode asks for the DOM
      overlay as an optional feature, rooted at the mount element when there is one. */
  function SessionInitFor(m: Mode, mounted: bool): (r: SessionInit)
    ensures r.optionalFeatures == ["dom-overlay"] && r.domOverlay == mounted
    ensures "dom-overlay" !in r.requiredFeatures
    ensures m == Inline <==> r.requiredFeatures == []
    ensures m != Inline ==> r.requiredFeatures[0] == "local-floor"
    ensures "hit-test" in r.requiredFeatures <==> m == ImmersiveAr
  {
    match m
    case ImmersiveAr => SessionInit(["local-floor", "hit-test"], ["dom-overlay"], mounted)
    case ImmersiveVr => SessionInit(["local-floor"], ["dom-overlay"], mounted)
    case Inline => SessionInit([], ["dom-overlay"], mounted)
  }

  /** Higher-priority modes require at least the features of lower ones. */
  lemma RequiredFeaturesGrowWithPriority(hi: Mode, lo: Mode, mounted: bool)
    requires Rank(hi) <= Rank(lo)
    ensures forall f :: f in SessionInitFor(lo, mounted).requiredFeatures ==>
                        f in SessionInitFor(hi, mounted).requiredFeatures
  {
  }

  // ---------------------------------------------------------------------
  // Viewer state

  datatype Renderer = Renderer(attached: bool, disposed: bool)

  /** Orbit controls exist once the viewer is initialized. */
  datatype Controls = NoControls | Orbit(enabled: bool)

  /** Why an entry failed. */
  datatype XrError =
    | NoCompatibleMode
    | QueryThrew(mode: Mode)
    | RequestRejected(mode: Mode)
    | SetSessionFailed(mode: Mode)

  /** The viewer's state. `session` is the held session (`arSessionRef`),
      named by its mode; `endListener` says whether that session has the
      `end` listener attached. `error` is the viewer error text, `""` for none. */
  datatype Viewer = Viewer(
    viewerReady: bool,
    isXRSupported: bool,
    isARMode: bool,
    session: Option<Mode>,
    endListener: bool,
    controls: Controls,
    renderer: Option<Renderer>,
    scene: Option<SceneTree.Node>,
    resizeListening: bool,
    error: string)

  /** The fields the XR transitions leave alone: readiness, the probe's
      verdict, the renderer, the scene, the resize listener and the error text. */
  predicate KeepsDisplay(a: Viewer, b: Viewer) {
    && a.viewerReady == b.viewerReady && a.isXRSupported == b.isXRSupported
    && a.renderer == b.renderer && a.scene == b.scene
    && a.resizeListening == b.resizeListening && a.error == b.error
  }

  function Initial(): Viewer {
    Viewer(false, false, false, None, false, NoControls, None, None, false, "")
  }

  const InitError: string := "Failed to initialize 3D viewer"

  /** The state that every transition keeps. */
  ghost predicate Inv(v: Viewer) {
    && (v.viewerReady <==> v.renderer.Some?)
    && (v.viewerReady <==> v.controls.Orbit?)
    && (v.isARMode ==> v.viewerReady && v.session.Some? && v.endListener)
    && (v.endListener ==> v.session.Some?)
    && (v.controls.Orbit? ==> (v.controls.enabled <==> !v.isARMode))
    && (v.renderer.Some? ==> v.renderer.value == Renderer(true, false))
  }

  lemma InitialInv()
    ensures Inv(Initial())
  {
  }

  /** `initializeViewer`: a no-op without a mount element or once the viewer
      is ready. Otherwise builds the scene, the renderer, enabled orbit
      controls and the resize listener. A renderer that cannot be created
      (no WebGL) throws after the scene, still empty, has been stored: the
      viewer stays not ready, keeps that bare scene, and shows an error. */
  function Initialize(v: Viewer, mounted: bool, webglOk: bool): (r: Viewer)
    ensures !mounted || v.viewerReady ==> r == v
    ensures mounted && !v.viewerReady && !webglOk ==>
      && r.error == InitError && r.scene == Some(SceneSetup.BareViewerScene())
      && r.(scene := v.scene, error := v.error) == v
    ensures mounted && !v.viewerReady && webglOk ==>
      && r.viewerReady && r.renderer == Some(Renderer(true, false))
      && r.controls == Orbit(true) && r.resizeListening
      && r.scene == Some(SceneSetup.ViewerScene())
      && r.isARMode == v.isARMode && r.session == v.session && r.endListener == v.endListener
      && r.isXRSupported == v.isXRSupported && r.error == v.error
  {
    if !mounted || v.viewerReady then v
    else if !webglOk then v.(scene := Some(SceneSetup.BareViewerScene()), error := InitError)
    else v.(viewerReady := true,
            renderer := Some(Renderer(true, false)),
            controls := Orbit(true),
            scene := Some(SceneSetup.ViewerScene()),
            resizeListening := true)
  }

  /** Records the probe's verdict. */
  function ApplyProbe(v: Viewer, xr: Option<XrRuntime>): (r: Viewer)
    ensures r == v.(isXRSupported := CheckXrSupport(xr).supported)
  {
    v.(isXRSupported := CheckXrSupport(xr).supported)
  }

  /** The AR button (labelled "Exit AR" while in AR mode) is shown exactly
      on a ready viewer that found XR support. */
  function ArButtonShown(v: Viewer): (r: bool)
    ensures r ==> v.viewerReady && v.isXRSupported
    ensures v.viewerReady && v.isXRSupported ==> r
  {
    v.viewerReady && v.isXRSupported
  }

  /** A viewer that initialized and then ran the probe offers the AR button
      exactly when the probe found a supported mode, in whichever order the
      two completed. */
  lemma ArButtonFollowsProbe(xr: Option<XrRuntime>)
    ensures var ready := ApplyProbe(Initialize(Initial(), true, true), xr);
      ArButtonShown(ready) <==> CheckXrSupport(xr).supported
    ensures ApplyProbe(Initialize(Initial(), true, true), xr)
         == Initialize(ApplyProbe(Initial(), xr), true, true)
    ensures !ArButtonShown(Initialize(Initial(), true, false))
  {
  }

  /** A visible button always reaches `toggleAR`'s real work: the viewer has
      a renderer, so a click exits in AR mode and enters otherwise. */
  lemma ArButtonClickActs(v: Viewer, xr: Option<XrRuntime>, granted: bool, setSessionOk: bool, mounted: bool)
    requires Inv(v) && ArButtonShown(v)
    ensures v.renderer.Some?
    ensures v.isARMode ==> ToggleAR(v, xr, granted, setSessionOk, mounted) == Toggled(Exit(v), None, None, false)
    ensures !v.isARMode ==> ToggleAR(v, xr, granted, setSessionOk, mounted) == Enter(v, xr, granted, setSessionOk, mounted)
  {
  }

  function Enable(c: Controls, enabled: bool): (r: Controls)
    ensures r.Orbit? <==> c.Orbit?
    ensures r.Orbit? ==> r.enabled == enabled
  {
    if c.Orbit? then Orbit(enabled) else NoControls
  }

  /** The common end of an XR activation: no session held, not in AR mode,
      orbit controls enabled. */
  function Ended(v: Viewer): Viewer {
    v.(session := None, isARMode := false, endListener := false, controls := Enable(v.controls, true))
  }

  /** Explicit exit: ends the held session if any, clears it, leaves AR mode
      and re-enables orbit controls. */
  function Exit(v: Viewer): (r: Viewer)
    ensures r.session.None? && !r.isARMode
    ensures r.controls.Orbit? <==> v.controls.Orbit?
    ensures r.controls.Orbit? ==> r.controls.enabled
    ensures !r.endListener && KeepsDisplay(v, r)
  {
    Ended(v)
  }

  /** The `end` listener, fired when the device or browser ends the session.
      Only a session whose entry completed has the listener. */
  function DeviceEnded(v: Viewer): (r: Viewer)
    ensures !v.endListener ==> r == v
    ensures v.endListener ==> r.session.None? && !r.isARMode && r.controls == Enable(v.controls, true)
    ensures !r.endListener && KeepsDisplay(v, r)
  {
    if v.endListener then Ended(v) else v
  }

  /** The result of pressing the AR button: the new state, the session
      request made (mode and options), why entry failed if it did, and
      whether the failure alert was shown. */
  datatype Toggled = Toggled(viewer: Viewer, request: Option<(Mode, SessionInit)>, failure: Option<XrError>, alerted: bool)

  /** The failure alert's text awaits `isSessionSupported` again for
      immersive-ar, immersive-vr and inline, in that order, when
      `navigator.xr` exists. A query that throws there rejects the handler
      before `alert` is called, so the alert appears only when none throws. */
  predicate AlertCanShow(xr: Option<XrRuntime>) {
    xr.None? || (xr.value.ar != Threw && xr.value.vr != Threw && xr.value.inline != Threw)
  }

  /** Entering XR: request the selected mode; on a granted request, hold the
      session, hand it to the renderer, and on success enter AR mode with
      orbit controls disabled and the `end` listener attached. The session is
      held before `setSession` is awaited, so a `setSession` that throws
      leaves it held while AR mode stays off. Every failure goes to the
      catch block, whose alert shows only when its own re-query does not throw. */
  function Enter(v: Viewer, xr: Option<XrRuntime>, granted: bool, setSessionOk: bool, mounted: bool): (r: Toggled)
    requires !v.isARMode
    ensures r.failure.None? <==> SelectMode(xr).Selected? && granted && setSessionOk
    ensures r.alerted <==> r.failure.Some? && AlertCanShow(xr)
    ensures SelectMode(xr).QueryFailed? ==> !r.alerted
    ensures r.viewer.isARMode <==> r.failure.None?
    ensures r.failure.None? ==>
      && r.viewer.session == Some(SelectMode(xr).mode)
      && r.viewer.controls == Enable(v.controls, false)
      && r.viewer.endListener
    ensures !SelectMode(xr).Selected? || !granted ==> r.viewer == v
    ensures SelectMode(xr).Selected? && granted && !setSessionOk ==>
      r.viewer == v.(session := Some(SelectMode(xr).mode), endListener := false)
    ensures r.failure.Some? ==> r.viewer.isARMode == v.isARMode && r.viewer.controls == v.controls
    ensures KeepsDisplay(v, r.viewer)
    ensures r.request.Some? <==> SelectMode(xr).Selected?
    ensures r.request.Some? ==> r.request.value == (SelectMode(xr).mode, SessionInitFor(SelectMode(xr).mode, mounted))
  {
    var alerted := AlertCanShow(xr);
    match SelectMode(xr)
    case NoneSupported => Toggled(v, None, Some(NoCompatibleMode), alerted)
    case QueryFailed(m) => Toggled(v, None, Some(QueryThrew(m)), alerted)
    case Selected(m) =>
      var request := Some((m, SessionInitFor(m, mounted)));
      if !granted then Toggled(v, request, Some(RequestRejected(m)), alerted)
      else if !setSessionOk then
        Toggled(v.(session := Some(m), endListener := false), request, Some(SetSessionFailed(m)), alerted)
      else
        Toggled(v.(session := Some(m), isARMode := true, endListener := true,
                   controls := Enable(v.controls, false)), request, None, false)
  }

  /** `toggleAR`: a no-op without a renderer; otherwise exit when in AR mode
      and enter when not. */
  function ToggleAR(v: Viewer, xr: Option<XrRuntime>, granted: bool, setSessionOk: bool, mounted: bool): (r: Toggled)
    ensures v.renderer.None? ==> r == Toggled(v, None, None, false)
    ensures v.renderer.Some? && v.isARMode ==> r == Toggled(Exit(v), None, None, false)
    ensures v.renderer.Some? && !v.isARMode ==> r == Enter(v, xr, granted, setSessionOk, mounted)
  {
    if v.renderer.None? then Toggled(v, None, None, false)
    else if v.isARMode then Toggled(Exit(v), None, None, false)
    else Enter(v, xr, granted, setSessionOk, mounted)
  }

  /** What `cleanup` did on unmount: the state afterwards and the session it
      ended, if any. */
  datatype Teardown = Teardown(viewer: Viewer, ended: Option<Mode>)

  /** `cleanup`: ends and clears any held session and detaches and disposes
      the renderer when the mount element is still there. Its
      `removeEventListener` call names the resize handler of the render whose
      effect registered `cleanup`, the first one, while the listener was added
      by `initializeViewer` in a later render with that render's handler; the
      two are different function objects, so the listener stays. The ended
      session's `end` listener fires afterwards, as `DeviceEnded`. */
  function Cleanup(v: Viewer, mounted: bool): (r: Teardown)
    ensures r.ended == v.session
    ensures r.viewer.session.None?
    ensures r.viewer.resizeListening == v.resizeListening
    ensures v.renderer.Some? && mounted ==> r.viewer.renderer == Some(Renderer(false, true))
    ensures v.renderer.None? || !mounted ==> r.viewer.renderer == v.renderer
    ensures r.viewer.isARMode == v.isARMode && r.viewer.endListener == v.endListener
    ensures r.viewer.viewerReady == v.viewerReady && r.viewer.controls == v.controls
    ensures r.viewer.isXRSupported == v.isXRSupported && r.viewer.scene == v.scene && r.viewer.error == v.error
  {
    var v1 := v.(session := None);
    var v2 := if v1.renderer.Some? && mounted then v1.(renderer := Some(Renderer(false, true))) else v1;
    Teardown(v2, v.session)
  }

  /** The resize listener outlives the viewer: after a successful
      initialization, cleanup (and the session's `end` event) leaves it
      registered. */
  lemma CleanupLeavesResizeListener(v: Viewer, webglOk: bool, mounted: bool)
    requires !v.viewerReady && webglOk
    ensures var ready := Initialize(v, true, webglOk);
      && ready.resizeListening
      && Cleanup(ready, mounted).viewer.resizeListening
      && DeviceEnded(Cleanup(ready, mounted).viewer).resizeListening
  {
  }

  // ---------------------------------------------------------------------
  // Properties

  /** Every transition keeps the invariant. */
  lemma TransitionsKeepInv(v: Viewer, xr: Option<XrRuntime>, granted: bool, setSessionOk: bool, mounted: bool, webglOk: bool)
    requires Inv(v)
    ensures Inv(Initialize(v, mounted, webglOk))
    ensures Inv(ApplyProbe(v, xr))
    ensures Inv(ToggleAR(v, xr, granted, setSessionOk, mounted).viewer)
    ensures Inv(DeviceEnded(v))
  {
  }

  /** Explicit exit and the device-initiated end converge on the same state,
      and the `end` event that follows an explicit exit changes nothing. */
  lemma ExitAndDeviceEndConverge(v: Viewer)
    requires Inv(v) && v.isARMode
    ensures Exit(v) == DeviceEnded(v)
    ensures DeviceEnded(Exit(v)) == Exit(v)
    ensures Exit(v).controls == Orbit(true)
  {
  }

  /** Entering and then exiting restores orbit-control enablement and leaves
      AR mode with no session held. */
  lemma EnterThenExitRestoresControls(v: Viewer, xr: Option<XrRuntime>, mounted: bool)
    requires Inv(v) && v.viewerReady && !v.isARMode
    requires SelectMode(xr).Selected?
    ensures var entered := ToggleAR(v, xr, true, true, mounted).viewer;
      && entered.isARMode && entered.controls == Orbit(false)
      && var exited := ToggleAR(entered, xr, true, true, mounted).viewer;
      && exited.controls == v.controls && !exited.isARMode && exited.session.None?
  {
  }

  /** When the probe found no support, pressing the AR button never reaches
      AR mode and leaves the state as it was. With a renderer, entry fails;
      the alert then shows unless one of the queries throws, and when none
      throws the failure is that no mode is compatible. */
  lemma NoSupportNeverActive(v: Viewer, xr: Option<XrRuntime>, granted: bool, setSessionOk: bool, mounted: bool)
    requires !v.isARMode
    requires !CheckXrSupport(xr).supported
    ensures var t := ToggleAR(v, xr, granted, setSessionOk, mounted);
      && !t.viewer.isARMode && t.viewer == v
      && (v.renderer.Some? ==> t.failure.Some? && (t.alerted <==> AlertCanShow(xr)))
      && (v.renderer.Some? && AlertCanShow(xr) ==> t.failure == Some(NoCompatibleMode) && t.alerted)
  {
    var s := SelectMode(xr);
    if s.Selected? {
      assert false;
    }
  }

  /** When the probe found support and no query throws, entry picks the
      highest-priority supported mode. */
  lemma ProbeSupportMeansSelection(xr: Option<XrRuntime>)
    requires CheckXrSupport(xr).supported
    requires forall m :: Ask(xr.value, m) != Threw
    ensures SelectMode(xr).Selected?
    ensures forall m :: Ask(xr.value, m) == Answer(true) ==> Rank(SelectMode(xr).mode) <= Rank(m)
  {
  }

  /** A device reporting immersive-ar gets immersive-ar, whatever else it supports. */
  lemma ArWins(rt: XrRuntime)
    requires rt.ar == Answer(true)
    ensures SelectMode(Some(rt)) == Selected(ImmersiveAr)
  {
  }

  /** A failed `setSession` is the one way to hold a session outside AR mode:
      the session stays held, without an `end` listener, until the next
      entry or the unmount cleanup. */
  lemma SetSessionFailureKeepsSession(v: Viewer, rt: XrRuntime, mounted: bool)
    requires Inv(v) && v.viewerReady && !v.isARMode
    requires SelectMode(Some(rt)).Selected?
    ensures var t := ToggleAR(v, Some(rt), true, false, mounted);
      && t.viewer.session == Some(SelectMode(Some(rt)).mode)
      && !t.viewer.isARMode && !t.viewer.endListener
      && t.failure == Some(SetSessionFailed(SelectMode(Some(rt)).mode))
  {
  }

  /** Unmounting, followed by the `end` event of the session it ended, leaves
      no session, AR mode off, orbit controls enabled, and a disposed renderer
      when the mount element was present; the resize listener is as before. */
  lemma CleanupThenEndReleasesAll(v: Viewer, mounted: bool)
    requires Inv(v)
    ensures var t := Cleanup(v, mounted);
      var after := DeviceEnded(t.viewer);
      && after.session.None? && !after.isARMode && after.resizeListening == v.resizeListening
      && (after.controls.Orbit? ==> after.controls.enabled)
      && (v.renderer.Some? && mounted ==> after.renderer.value.disposed)
      && (v.isARMode ==> t.ended.Some?)
  {
  }
}
